=== FILE: README.md ===
# PDF signer: overlay fields, export and signature editor in Dafny

This project models the core of a browser-based PDF signing app. The user
picks a PDF or an image. The app previews it one page at a time and keeps a
list of overlay fields, which are signatures and text boxes placed over the
preview. Fields can be dragged, resized, deleted and aspect-locked. "Save
Document" draws the fields into the PDF: it converts each field from preview
space (CSS pixels, origin top-left) into PDF space (points, origin
bottom-left), page by page. Signatures come from the signature editor dialog,
which has three modes: draw on a pad, type a name, or upload an image.

Modules, one per concern:

- `Basics` (basics.dfy): `Option` for optional properties and nullable
  references, `Point`/`Size` over `real`, `includes`/`startsWith` on strings,
  and decimal rendering of page numbers.
- `Overlay` (overlay.dfy): the overlay-field record and the list edits made
  from the preview: drag, resize, delete, aspect-lock toggle. Also the
  placement of a new signature or text box, and the display filter.
- `Session` (session.dfy): the page's session state and its event handlers:
  file change, document loaded, signature save, add text box, text-layer
  edit, Previous/Next.
- `Export` (export.dfy): "Save Document": the scale factors, the
  preview-to-PDF transform, the page filter and the per-field `try`, as pure
  functions and as the two loops of the handler (methods proved equal to
  them). The saved document is the list of draw calls each page received,
  plus the log of failing fields. Page index `i` receives exactly the fields
  on page `i + 1`, in list order. A draw call records the preview rectangle
  and the scale. `ImageBox` and `TextAt` compute from those the coordinates
  pdf-lib is given.
- `ExportProperties` (export_properties.dfy): what the export promises.
  A field on no page is never exported. A
  failing field is logged and skipped. The transform round-trips and the
  bottom edge maps to `y = 0`.
- `Editor` (editor.dfy): the signature editor. Modes, upload sizing,
  resize-stop, clear, the typed-text layout, and the dispatch of the
  "Save" button into exactly one `onSave` call or one alert, for every save
  that completes.
- `Workflow` (workflow.dfy): the dialog as the page uses it. A fresh editor
  is mounted when the dialog opens, and its `onSave` callback is the page's
  signature-save handler.

Browser and library effects are parameters:

- `Export.Library` says whether pdf-lib embeds a field's image or can draw its
  text.
- `Editor.SaveEnv` holds the PNGs the canvases encode and says whether a 2D
  context exists and whether an image loads.
- `Editor.Picture` is the decoded upload.
- A `pdfPages`/`pages` parameter is what pdf-lib reads from the file, with
  `None` when loading throws.
- Field ids (the source uses `Date.now()`) are parameters and are not assumed
  unique. Every edit acts on all fields with the given id.

## Model

| member | source | states |
|---|---|---|
| `Overlay.NewSignature` | src/app/page.tsx:104-124 | a placed signature is 200 by 100, aspect-locked, on the current page, never at a negative position, and ends 50 px short of the right/bottom edges whenever the preview is at least 250 wide/150 high (pinned at 0 otherwise) |
| `Overlay.NewTextBox` | src/app/page.tsx:129-145 | a new text box is 200 by 100, empty, in editing state, on the current page, with equal margins on both sides when it fits and pinned at 0 otherwise |
| `Overlay.Append` | src/app/page.tsx:125 | the new field goes at the end, earlier fields untouched |
| `Overlay.MoveField` | src/app/page.tsx:395-403 | a drag-stop sets the position of every field with the id and changes nothing else in it; all other fields, the length and the order are kept |
| `Overlay.ResizeField` | src/app/page.tsx:404-417 | a resize-stop sets width, height and position of every field with the id; everything else is kept |
| `Overlay.ToggleLock` | src/app/page.tsx:455-463 | the lock of every field with the id becomes the negation of its truthiness; other fields are kept |
| `Overlay.Delete` | src/app/page.tsx:447-450 | the result holds exactly the fields of the input whose id differs |
| `Overlay.DeleteAppend` | src/app/page.tsx:449 | delete distributes over concatenation, so survivors keep their relative order |
| `Overlay.DeleteLength` | src/app/page.tsx:449 | delete shortens the list by exactly the number of fields with the id |
| `Overlay.DeleteAbsent` | src/app/page.tsx:449 | deleting an id no field carries returns the list unchanged |
| `Overlay.DeleteIdempotent` | src/app/page.tsx:449 | deleting twice equals deleting once |
| `Overlay.DeleteUndoesAppend` | src/app/page.tsx:125 | appending a field with a fresh id and deleting that id gives back the list |
| `Overlay.DeleteAfterMove` | src/app/page.tsx:395-403 | moving a field and then deleting it is the same as deleting it |
| `Overlay.MoveLastWins` | src/app/page.tsx:395-403 | of two drags of the same field, the second wins |
| `Overlay.MovesCommute` | src/app/page.tsx:395-403 | drags of fields with different ids commute |
| `Overlay.EditsKeepIds` | src/app/page.tsx:395-417 | drag, resize and toggle keep the list's ids, so its length and order |
| `Overlay.ToggleTwice` | src/app/page.tsx:455-463 | toggling twice keeps every field's lock truthiness, restores a defined lock exactly, and turns an undefined lock into `false` |
| `Overlay.ToggleTwiceRestores` | src/app/page.tsx:455-463 | when the targeted fields have a defined lock, two toggles give back the list |
| `Session.Initial` | src/app/page.tsx:39-50 | the session starts with no file, no fields or text layers, page 1 of 0, an unmeasured preview, an empty file URL, and the signature dialog closed |
| `Session.InitialTextLayers` | src/app/page.tsx:75-85 | one layer per page, pages 1..n in order, empty, font size 12, at the origin, with pairwise distinct ids |
| `Session.TextLayerIdInjective` | src/app/page.tsx:79 | different pages get different `text-layer-N` ids |
| `Session.HandleFileChange` | src/app/page.tsx:58-88 | no file: nothing changes; otherwise page 1, no fields, the new URL, n empty text layers for a PDF whose n pages were read and none otherwise, with page count and preview size kept |
| `Session.FileChangeLastWins` | src/app/page.tsx:58-88 | a second call of the handler erases every effect of the first; the page itself shows the file input only until a file is chosen |
| `Session.DocumentLoaded` | src/app/page.tsx:90-102 | the page count is recorded, the preview size only when the page element exists, and nothing else changes |
| `Session.FirstSignatureOfDocument` | src/app/page.tsx:58-127 | after choosing a PDF and measuring its page, a signature save yields exactly one field, on page 1, carrying the image |
| `Session.HandleSignatureSave` | src/app/page.tsx:104-127 | with a zero preview dimension nothing changes (the dialog stays open); otherwise exactly the new signature is appended and the dialog closes |
| `Session.AddTextBox` | src/app/page.tsx:129-147 | with a zero preview dimension nothing changes; otherwise exactly the new text box is appended |
| `Session.PlacedSignatureNonNegative` | src/app/page.tsx:112-120 | the appended signature has a non-negative position, the current page and the saved image |
| `Session.SavedSignatureRemovable` | src/app/page.tsx:104-127 | a signature saved under a fresh id is removed, and nothing else, by the delete button of that id |
| `Session.AddedTextBoxRemovable` | src/app/page.tsx:129-147 | a text box added under a fresh id is removed, and nothing else, by the delete button of that id |
| `Session.HandleTextLayerChange` | src/app/page.tsx:149-157 | layers on the page get the new content, all other layers are kept, the length is kept |
| `Session.TextLayerChangeHitsOnePage` | src/app/page.tsx:149-157 | on a fresh PDF's layers, an edit of page p changes exactly the layer at index p - 1 |
| `Session.TextLayerChangeMissingPage` | src/app/page.tsx:149-157 | an edit of a page outside 1..n changes nothing |
| `Session.TextLayerChangeLastWins` | src/app/page.tsx:149-157 | of two edits of the same page, the second wins |
| `Session.PreviousPage` | src/app/page.tsx:305 | Previous goes one page back and never below 1 |
| `Session.NextPage` | src/app/page.tsx:315 | Next goes one page forward and never beyond the page count |
| `Session.NavigationStaysInRange` | src/app/page.tsx:304-320 | from a page in 1..numPages both buttons stay in 1..numPages |
| `Session.PreviousNextInverse` | src/app/page.tsx:304-320 | away from the ends, Previous and Next undo each other |
| `Session.NavigationEnds` | src/app/page.tsx:304-320 | Previous on page 1 and Next on the last page are fixed points |
| `Session.NextWithoutPageCount` | src/app/page.tsx:45 | before a page count is known (0), Next takes page 1 to page 0 |
| `Export.ScaleFor` | src/app/page.tsx:178-189 | the scale factors map the preview's size onto the first page's size, and the flip uses the first page's height |
| `Export.ToPdfGeometry` | src/app/page.tsx:206-212 | x and width scale by scaleX, height by scaleY, and the box's top sits y·scaleY below the page top |
| `Export.ToPreview` | src/app/page.tsx:206-212 | the inverse map scales back by the same factors |
| `Export.DrawField` | src/app/page.tsx:199-236 | a field that throws is logged by id and draws nothing; a signature or text box otherwise adds its one command; other kinds add nothing |
| `Export.DrawFields` | src/app/page.tsx:199-237 | a page's loop issues at most one command or one error per field |
| `ExportProperties.PageFieldsMembers` | src/app/page.tsx:196 | the page filter keeps a field exactly when it is in the list and assigned to that page |
| `Export.DrawPages` | src/app/page.tsx:192-199 | the document has one entry per page, and page index i receives exactly the commands of the fields on page i + 1, in list order |
| `Export.DrawFieldsOnPage` | src/app/page.tsx:192-237 | every command of page index i is drawn on page index i |
| `Export.SaveDocument` | src/app/page.tsx:169-256 | nothing happens for a missing or non-PDF file; a PDF that fails to load or has no first page raises the error alert; a missing page element returns quietly; the download, always named `signed-document.pdf`, happens exactly when the PDF loads with a first page and the page element exists with non-zero size, and its document is the page loop over every page of the PDF at the first page's scale; every failure alert carries the one message |
| `Export.RenderFields` | src/app/page.tsx:199-237 | the inner loop computes the page's drawing as `DrawFields` defines it |
| `Export.RenderPages` | src/app/page.tsx:192-238 | the outer loop computes the whole export as `DrawPages` defines it |
| `ExportProperties.TransformRoundTrip` | src/app/page.tsx:206-212 | with non-zero scales, preview-to-PDF and back is the identity, in both directions |
| `ExportProperties.BottomEdgeMapsToZero` | src/app/page.tsx:206-212 | a field whose bottom edge is the preview's bottom edge lands at y = 0 |
| `ExportProperties.WholePreviewIsWholePage` | src/app/page.tsx:178-212 | the whole preview rectangle maps onto the whole first page |
| `ExportProperties.TextBaselineAtTopEdge` | src/app/page.tsx:220-232 | a text box's drawing point is the image of the box's top-left corner |
| `ExportProperties.FieldOffPagesIgnored` | src/app/page.tsx:192-196 | a field on no page 1..n leaves the export unchanged, wherever it is in the list |
| `ExportProperties.UnpagedFieldShownButNotExported` | src/app/page.tsx:382-383 | a field without a page is displayed on every page yet never exported |
| `ExportProperties.ThrowingFieldSkipped` | src/app/page.tsx:199-236 | a field that throws draws nothing and every page's other commands are unchanged |
| `ExportProperties.ThrowingFieldLogged` | src/app/page.tsx:234-236 | a field that throws on an exported page is logged by its id |
| `ExportProperties.PageErrorsKept` | src/app/page.tsx:192-237 | every error logged on page p is in the export's error log |
| `ExportProperties.ErrorsGrow` | src/app/page.tsx:192-237 | processing more pages only appends to the error log |
| `ExportProperties.NoOverlaysNoDrawing` | src/app/page.tsx:192-237 | with no fields nothing is drawn or logged |
| `ExportProperties.PdfSelectionExports` | src/app/page.tsx:170 | a file of type `application/pdf` passes the `includes('pdf')` test and is exported |
| `ExportProperties.TwoPageScenario` | src/app/page.tsx:192-219 | a signature on page 2 of a two-page PDF draws nothing on page 1 and exactly one image at its transformed box on page 2 |
| `Editor.Initial` | src/components/SignatureEditor.tsx:23-30 | a fresh editor is in draw mode, with no text, no upload, the lock on and an empty pad |
| `Editor.SelectMode` | src/components/SignatureEditor.tsx:228-238 | the Draw/Type buttons set the mode; the pad keeps its ink only when staying in draw mode |
| `Editor.Stroke` | src/components/SignatureEditor.tsx:294-296 | ink only lands on the pad in draw mode, where the pad is mounted |
| `Editor.SetTyped` | src/components/SignatureEditor.tsx:327 | typing replaces the text and nothing else |
| `Editor.SetLock` | src/components/SignatureEditor.tsx:456-458 | the checkbox sets the lock and nothing else |
| `Editor.Clear` | src/components/SignatureEditor.tsx:94-109 | in draw mode the pad is emptied; in type mode the text becomes empty and nothing else changes; in upload mode nothing changes |
| `Editor.Fit` | src/components/SignatureEditor.tsx:127-130 | an upload is at most 400 wide, no wider than the image, and has the image's aspect ratio |
| `Editor.HandleUpload` | src/components/SignatureEditor.tsx:119-143 | without a file nothing changes; otherwise the fitted upload is stored and the mode becomes upload |
| `Editor.SmallUploadUnchanged` | src/components/SignatureEditor.tsx:127-130 | an image at most 400 wide keeps its intrinsic size |
| `Editor.LargeUploadScaled` | src/components/SignatureEditor.tsx:127-130 | a wider image is scaled to 400 wide, its height by the same factor |
| `Editor.HandleResizeStop` | src/components/SignatureEditor.tsx:145-160 | with no upload nothing changes; otherwise the new size is taken, the ratio is kept under the lock and recomputed as width/height without it |
| `Editor.LockedResizesKeepRatio` | src/components/SignatureEditor.tsx:150-157 | under the lock, resizes keep the ratio computed at upload |
| `Editor.UnlockedResizeFollowsSize` | src/components/SignatureEditor.tsx:156 | without the lock, the ratio follows the new size |
| `Editor.PixelRatio` | src/components/SignatureEditor.tsx:50 | a zero device pixel ratio is replaced by 1 |
| `Editor.LayOutText` | src/components/SignatureEditor.tsx:50-71 | the typed text has equal margins on the 800-wide canvas and its baseline at half of 300; the backing store is the logical size times the pixel ratio |
| `Editor.Save` | src/components/SignatureEditor.tsx:167-223 | a save calls `onSave` at most once; a save that completes calls `onSave` or raises one alert, with the specific message of each failing branch; a typed snapshot that never decodes (the renderer sets no `onerror`) leaves the save pending with no effect |
| `Editor.SaveCharacterised` | src/components/SignatureEditor.tsx:167-223 | `onSave` is called exactly when the mode's requirements are met, and then with that mode's image |
| `Editor.SaveAlertsKnown` | src/components/SignatureEditor.tsx:167-223 | every alert is one of the four messages |
| `Editor.EmptyRenderRefused` | src/components/SignatureEditor.tsx:184-187 | a typed signature rendered to the empty string is refused once the render completes |
| `Editor.OperationsKeepValid` | src/components/SignatureEditor.tsx:294-296 | every operation keeps ink confined to draw mode |
| `Editor.ClearedTextNotSaved` | src/components/SignatureEditor.tsx:106-107 | typing then clearing leaves nothing to save |
| `Editor.ClearedPadNotSaved` | src/components/SignatureEditor.tsx:95-96 | drawing then clearing leaves nothing to save |
| `Editor.InkLostOnModeSwitch` | src/components/SignatureEditor.tsx:294 | leaving draw mode and coming back gives an empty pad |
| `Editor.UploadThenSave` | src/components/SignatureEditor.tsx:189-215 | after an upload, a save with a working canvas hands on the resized image only |
| `Workflow.OpenEditor` | src/app/page.tsx:335-337 | "Add Signature" shows the dialog with a freshly mounted editor, and every other part of the page state (file, fields, page, preview) is unchanged |
| `Workflow.CloseEditor` | src/app/page.tsx:485-487 | the close button hides the dialog, and every other part of the page state is unchanged |
| `Workflow.Deliver` | src/app/page.tsx:492 | each image handed to `onSave` can only append to the field list |
| `Workflow.Submit` | src/app/page.tsx:492 | a save in the dialog adds at most one field and never changes existing ones |
| `Workflow.RefusedSaveChangesNothing` | src/components/SignatureEditor.tsx:167-223 | a refused save leaves the page unchanged, with one alert, or none when the save never completes |
| `Workflow.AcceptedSaveAddsOneField` | src/app/page.tsx:104-127 | an accepted save on a measured preview adds exactly one signature with the editor's image on the current page and closes the dialog |
| `Workflow.FreshEditorRefusesSave` | src/components/SignatureEditor.tsx:170-172 | saving straight after opening the dialog is refused with "Please provide a signature" |
| `Workflow.DrawAndSave` | src/app/page.tsx:104-127 | one stroke and a save append the placed signature to the fields |
| `Basics.NatToString` | src/app/page.tsx:79 | the decimal rendering of a page number is a non-empty digit string, ending in its last digit |
| `Basics.NatToStringInjective` | src/app/page.tsx:79 | distinct numbers render differently |
| `Basics.ContainsHasOccurrence` | src/app/page.tsx:170 | `includes` holds only when the substring occurs at some offset |

## Left out

- Browser and library I/O is not modelled: `FileReader`, `fetch` of data
  URLs, object-URL creation and release, the download link, `console`,
  canvas pixel drawing and PNG encoding. Neither are pdf-lib's loading,
  embedding, drawing and saving, or react-pdf's rendering. Their results
  enter as parameters: `Library`, `SaveEnv`, `Picture`, the page list and
  the measured element.
- The asynchronous ordering of handlers is not modelled. Each handler runs
  to completion on the state it was given. The PDF load inside a file change
  is folded into that change.
- The order of draw calls across different pages is not recorded. Each
  page keeps its own calls in order, and that is all the saved PDF shows. The
  error log keeps the order across pages.
- Floating-point behaviour is not modelled. Geometry is over `real`, and
  `parseFloat` of the style strings is the caller's number.
- `Export.SaveDocument`: a preview measuring zero makes the source divide by
  zero and draw with infinite or NaN coordinates. The program still goes on to
  save and download the document, which is an unchanged copy when no field is
  drawn. The model stops with `NonFiniteScale` and promises no download for
  this case, because what pdf-lib does with non-finite values is not part of
  this model.
- `Editor.HandleUpload` and `Editor.Fit` require an image of positive
  intrinsic size. The source would divide by a zero height.
- `Editor.HandleResizeStop` requires a non-zero height when the lock is off.
  The resize handle's minimum size of 50 ensures this in the source.
- `Editor.Save`: the drawing pad's reference is taken to exist in draw mode,
  which it does once the pad is mounted. A null reference would give the
  same alert as an empty pad. A throw from the `onSave` callback itself is
  not modelled, because the page's handler does not throw. The promise of
  exactly one `onSave` call or one alert holds only for saves that complete.
  In type mode the typed snapshot has no `onerror`, so a snapshot that fails
  to decode leaves the save pending with no effect at all (`Pending`).
- `Editor.LayOutText` does not model the slight rotation of the typed text,
  the font, colour and font-size pickers, or the measuring of the text. The
  measured width is a parameter. The redraw of the PNG snapshot through the
  context, which is already scaled by the pixel ratio, is not modelled either.
  The proved centring is therefore a property of the first drawing, not of
  the saved image. At a ratio of 2 the saved image is that drawing magnified
  twice and cropped.
- React-rnd's drag and resize bounds and minimum sizes are not modelled. The
  positions and sizes it reports are parameters.
- The field record's optional `size` property is not modelled. Nothing in
  the page reads or writes it.
- The edit-mode toggle (`editMode`) is not modelled. It changes a button's
  look and nothing else.
- Text layers are created and edited as the page does. No input edits them
  in the rendered page, and the export ignores them.
- The export, as `handleSaveDocument` does it:
  - a failing field is logged and skipped while the others are still drawn;
  - the file is always named `signed-document.pdf`;
  - one scale and the first page's height are used for every page;
  - text boxes go to the library with a maximum width, and the program does
    no wrapping or rasterising of its own.
- Only the signature editor's pad is modelled. The standalone pad widget
  repeats its one rule: an empty pad is refused.
- Analytics, page layout, the not-found redirect, build configuration, type
  declarations, the class-name helper and the font list are not modelled.
  None of them holds application logic.

=== FILE: basics.dfy ===
/**
 Small vocabulary shared by the overlay model, the session, the exporter and
 the signature editor: optional values, screen geometry over `real`, and the
 two string tests the application performs on MIME types.
 */
module Basics {

  /** A TypeScript optional property or nullable reference: `undefined`/`null` is `None`. */
  datatype Option<+T> = None | Some(value: T)

  /** A position in preview space (CSS pixels, origin at the top-left corner). */
  datatype Point = Point(x: real, y: real)

  /** A width/height pair, in whatever unit the context uses. */
  datatype Size = Size(width: real, height: real)

  function Max(a: real, b: real): (r: real)
    ensures r >= a && r >= b
    ensures r == a || r == b
  {
    if a < b then b else a
  }

  function MinInt(a: int, b: int): (r: int)
    ensures r <= a && r <= b
    ensures r == a || r == b
  {
    if a < b then a else b
  }

  function MaxInt(a: int, b: int): (r: int)
    ensures r >= a && r >= b
    ensures r == a || r == b
  {
    if a < b then b else a
  }

  /** `s.startsWith(prefix)` */
  predicate StartsWith(s: string, prefix: string) {
    |prefix| <= |s| && s[..|prefix|] == prefix
  }

  /** `s.includes(sub)`: `sub` occurs somewhere in `s`. */
  predicate Contains(s: string, sub: string)
    decreases |s|
  {
    StartsWith(s, sub) || (|s| > 0 && Contains(s[1..], sub))
  }

  /** An occurrence of `sub` at offset `i` is found by `Contains`. */
  lemma {:induction false} ContainsAt(s: string, sub: string, i: nat)
    requires i + |sub| <= |s|
    requires s[i..i + |sub|] == sub
    ensures Contains(s, sub)
    decreases i
  {
    if i == 0 {
      assert s[..|sub|] == s[0..|sub|];
    } else {
      assert s[1..][i - 1..i - 1 + |sub|] == s[i..i + |sub|];
      ContainsAt(s[1..], sub, i - 1);
    }
  }

  /** Conversely, `Contains` always points at some occurrence. */
  lemma {:induction false} ContainsHasOccurrence(s: string, sub: string) returns (i: nat)
    requires Contains(s, sub)
    ensures i + |sub| <= |s| && s[i..i + |sub|] == sub
    decreases |s|
  {
    if StartsWith(s, sub) {
      i := 0;
    } else {
      var j := ContainsHasOccurrence(s[1..], sub);
      assert s[1..][j..j + |sub|] == s[j + 1..j + 1 + |sub|];
      i := j + 1;
    }
  }

  /** The decimal digit character for `d`. */
  function DigitChar(d: nat): (c: char)
    requires d < 10
    ensures '0' <= c <= '9'
  {
    (48 + d) as char
  }

  /** Decimal rendering of a natural number, as a template literal `${n}` produces it. */
  function NatToString(n: nat): (s: string)
    ensures |s| >= 1
    ensures forall i :: 0 <= i < |s| ==> '0' <= s[i] <= '9'
    ensures s[|s| - 1] == DigitChar(n % 10)
    ensures n >= 10 <==> |s| >= 2
  {
    if n < 10 then [DigitChar(n)] else NatToString(n / 10) + [DigitChar(n % 10)]
  }

  /** Distinct numbers render differently. */
  lemma {:induction false} NatToStringInjective(a: nat, b: nat)
    requires NatToString(a) == NatToString(b)
    ensures a == b
    decreases a
  {
    var s := NatToString(a);
    if a >= 10 && b >= 10 {
      assert NatToString(a / 10) == s[..|s| - 1] == NatToString(b / 10);
      NatToStringInjective(a / 10, b / 10);
    }
  }
}

=== FILE: editor.dfy ===
/**
 The signature editor dialog: three input modes (draw on a pad, type a name
 rendered in a script font, upload an image), the sizing rules for an
 uploaded image, and the dispatch of the "Save" button. Canvas drawing, image
 decoding and PNG encoding are browser work; their results are inputs here.
 */
module Editor {
  import opened Basics

  datatype Mode = Draw | Type | Upload

  /** An uploaded image: its data URL, its displayed size and the aspect ratio kept while resizing. */
  datatype Uploaded = Uploaded(dataUrl: string, width: real, height: real, aspectRatio: real)

  /**
   The editor's state. The drawing pad is mounted only in draw mode, so
   `padHasInk` is the pad's "not empty" and is false whenever the mode is not
   `Draw`. The colour, font and font-size pickers only style the typed image
   and are not part of the model.
   */
  datatype State = State(
    mode: Mode,
    typed: string,
    uploaded: Option<Uploaded>,
    lockAspect: bool,
    padHasInk: bool)

  /** The decoded image a file picker delivered: its data URL and intrinsic size. */
  datatype Picture = Picture(dataUrl: string, width: real, height: real)

  /**
   What the browser does during a save: the PNG of the trimmed pad; whether a
   2D context is available for rendering the typed text, whether the snapshot
   of the rendered text decodes again, and the PNG it yields; whether a 2D
   context is available for the upload canvas, whether the uploaded image
   loads, and the PNG of the resized upload.
   */
  datatype SaveEnv = SaveEnv(
    drawnPng: string,
    typeContext: bool,
    typedLoads: bool,
    typedPng: string,
    uploadContext: bool,
    uploadLoads: bool,
    resizedPng: string)

  /** What one press of the dialog's "Save" button does: the images passed to `onSave` and the alerts raised. */
  datatype Trace = Trace(saved: seq<string>, alerts: seq<string>)

  /** A save that never completes: the awaited promise neither resolves nor rejects. */
  const Pending: Trace := Trace([], [])

  const MaxUploadWidth: real := 400.0
  const LogicalWidth: real := 800.0
  const LogicalHeight: real := 300.0
  const TextBaseline: real := 150.0

  const NoSignature: string := "Please provide a signature"
  const GenerateFailed: string := "Failed to generate signature image"
  const NoContext: string := "Failed to get canvas context"
  const LoadFailed: string := "Failed to load uploaded signature"

  /** A freshly mounted editor: draw mode, nothing typed or uploaded, aspect lock on, empty pad. */
  function Initial(): (s: State)
    ensures s.mode == Draw && s.typed == "" && s.uploaded.None? && s.lockAspect && !s.padHasInk
  {
    State(Draw, "", None, true, false)
  }

  /** The pad only holds ink while it is mounted, that is, in draw mode. */
  predicate Valid(s: State) {
    s.padHasInk ==> s.mode == Draw
  }

  /**
   The Draw and Type buttons. Staying in draw mode keeps the mounted pad and
   its ink; any other switch unmounts it, and a pad mounted later starts empty.
   */
  function SelectMode(s: State, m: Mode): (r: State)
    requires m != Upload
    ensures r.mode == m && r.typed == s.typed && r.uploaded == s.uploaded && r.lockAspect == s.lockAspect
    ensures r.padHasInk <==> s.mode == Draw && m == Draw && s.padHasInk
  {
    if s.mode == Draw && m == Draw then s else s.(mode := m, padHasInk := false)
  }

  /** A stroke on the pad, which exists only in draw mode. */
  function Stroke(s: State): (r: State)
    ensures s.mode == Draw ==> r == s.(padHasInk := true)
    ensures s.mode != Draw ==> r == s
  {
    if s.mode == Draw then s.(padHasInk := true) else s
  }

  /** Editing the text input. */
  function SetTyped(s: State, text: string): (r: State)
    ensures r.typed == text && r == s.(typed := r.typed)
  {
    s.(typed := text)
  }

  /** The "Maintain aspect ratio" checkbox. */
  function SetLock(s: State, checked: bool): (r: State)
    ensures r.lockAspect == checked && r == s.(lockAspect := r.lockAspect)
  {
    s.(lockAspect := checked)
  }

  /**
   "Clear": in draw mode it empties the pad, in type mode it empties the text,
   and in upload mode it does nothing.
   */
  function Clear(s: State): (r: State)
    ensures s.mode == Draw ==> !r.padHasInk && r.typed == s.typed
    ensures s.mode == Type ==> r.typed == "" && r.padHasInk == s.padHasInk
    ensures s.mode == Upload ==> r == s
    ensures r.mode == s.mode && r.uploaded == s.uploaded && r.lockAspect == s.lockAspect
  {
    match s.mode
    case Draw => s.(padHasInk := false)
    case Type => s.(typed := "")
    case Upload => s
  }

  /**
   The upload sizing rule: at most 400 wide, with the intrinsic aspect ratio.
   The image must have a positive intrinsic size.
   */
  function Fit(p: Picture): (u: Uploaded)
    requires p.width > 0.0 && p.height > 0.0
    ensures u.dataUrl == p.dataUrl
    ensures 0.0 < u.width <= MaxUploadWidth && u.width <= p.width
    ensures u.width == p.width || u.width == MaxUploadWidth
    ensures u.aspectRatio * p.height == p.width
    ensures u.height * u.aspectRatio == u.width
  {
    var aspectRatio := p.width / p.height;
    var width := if p.width < MaxUploadWidth then p.width else MaxUploadWidth;
    Uploaded(p.dataUrl, width, width / aspectRatio, aspectRatio)
  }

  /**
   A file was picked. Nothing happens when no file was chosen; otherwise the
   decoded image is stored, sized by `Fit`, and the editor switches to upload
   mode (unmounting the pad).
   */
  function HandleUpload(s: State, picked: Option<Picture>): (r: State)
    requires picked.Some? ==> picked.value.width > 0.0 && picked.value.height > 0.0
    ensures picked.None? ==> r == s
    ensures picked.Some? ==>
      && r.mode == Upload && r.uploaded == Some(Fit(picked.value)) && !r.padHasInk
      && r.typed == s.typed && r.lockAspect == s.lockAspect
  {
    match picked
    case None => s
    case Some(p) => s.(mode := Upload, uploaded := Some(Fit(p)), padHasInk := false)
  }

  /**
   The resize handle is released at `newWidth` by `newHeight`. The size is
   taken as is; the stored aspect ratio is kept while the lock is on and
   recomputed from the new size otherwise. Without an upload nothing happens.
   */
  function HandleResizeStop(s: State, newWidth: real, newHeight: real): (r: State)
    requires s.uploaded.Some? && !s.lockAspect ==> newHeight != 0.0
    ensures s.uploaded.None? ==> r == s
    ensures s.uploaded.Some? ==>
      && r.uploaded.Some?
      && r.uploaded.value.dataUrl == s.uploaded.value.dataUrl
      && r.uploaded.value.width == newWidth && r.uploaded.value.height == newHeight
      && r == s.(uploaded := r.uploaded)
    ensures s.uploaded.Some? && s.lockAspect ==> r.uploaded.value.aspectRatio == s.uploaded.value.aspectRatio
    ensures s.uploaded.Some? && !s.lockAspect ==> r.uploaded.value.aspectRatio * newHeight == newWidth
  {
    match s.uploaded
    case None => s
    case Some(u) =>
      var aspectRatio := if s.lockAspect then u.aspectRatio else newWidth / newHeight;
      s.(uploaded := Some(u.(width := newWidth, height := newHeight, aspectRatio := aspectRatio)))
  }

  /** `window.devicePixelRatio || 1`: a zero ratio is falsy and replaced by 1. */
  function PixelRatio(reported: real): (dpr: real)
    ensures reported != 0.0 ==> dpr == reported
    ensures reported == 0.0 ==> dpr == 1.0
    ensures dpr != 0.0
  {
    if reported == 0.0 then 1.0 else reported
  }

  /** Where the typed text is drawn on the 800 by 300 logical canvas, and the canvas's backing size. */
  datatype TextLayout = TextLayout(x: real, y: real, backingWidth: real, backingHeight: real)

  /** The layout computed for a text measuring `textWidth` at device pixel ratio `reported`. */
  function LayOutText(textWidth: real, reported: real): (l: TextLayout)
    // equal margins left and right, so the text's midpoint is the canvas's midpoint
    ensures l.x == LogicalWidth - (l.x + textWidth)
    ensures l.x + textWidth / 2.0 == LogicalWidth / 2.0
    // the baseline sits in the vertical middle (the text is drawn with a middle baseline)
    ensures l.y * 2.0 == LogicalHeight
    // the backing store scales the logical size by the pixel ratio
    ensures l.backingWidth == LogicalWidth * PixelRatio(reported)
    ensures l.backingHeight == LogicalHeight * PixelRatio(reported)
  {
    var dpr := PixelRatio(reported);
    TextLayout((LogicalWidth - textWidth) / 2.0, TextBaseline, LogicalWidth * dpr, LogicalHeight * dpr)
  }

  /** `onSave(image)` as the only effect of a path. */
  function Saves(image: string): Trace {
    Trace([image], [])
  }

  /** A thrown error or an early return with `alert(message)`. */
  function Alerts(message: string): Trace {
    Trace([], [message])
  }

  /**
   Whether a save completes. In type mode with a 2D context the text renderer
   resolves only from the snapshot image's `onload`, and sets no `onerror`:
   a snapshot that fails to decode leaves the save waiting forever.
   */
  predicate Settles(s: State, env: SaveEnv) {
    !(s.mode == Type && s.typed != "" && env.typeContext && !env.typedLoads)
  }

  /**
   The "Save" button. Draw mode needs ink on the pad. Type mode needs non-empty
   text and a non-empty rendered image. Upload mode needs an uploaded image, a
   canvas context and a successful load. Every other situation falls through
   to "Please provide a signature". Each failure is reported in an alert,
   except a typed snapshot that never loads, after which nothing happens.
   */
  function Save(s: State, env: SaveEnv): (t: Trace)
    ensures |t.saved| <= 1
    ensures Settles(s, env) ==> |t.saved| + |t.alerts| == 1
    ensures !Settles(s, env) ==> t == Pending
    ensures s.mode == Draw && !s.padHasInk ==> t == Alerts(NoSignature)
    ensures s.mode == Type && s.typed == "" ==> t == Alerts(NoSignature)
    ensures s.mode == Upload && s.uploaded.None? ==> t == Alerts(NoSignature)
    ensures s.mode == Type && s.typed != "" && !env.typeContext ==> t == Alerts(GenerateFailed)
    ensures s.mode == Upload && s.uploaded.Some? && !env.uploadContext ==> t == Alerts(NoContext)
    ensures s.mode == Upload && s.uploaded.Some? && env.uploadContext && !env.uploadLoads ==> t == Alerts(LoadFailed)
  {
    if s.mode == Draw then
      if !s.padHasInk then Alerts(NoSignature) else Saves(env.drawnPng)
    else if s.mode == Type && s.typed != "" then
      if !env.typeContext then Alerts(GenerateFailed)   // the renderer resolves with ''
      else if !env.typedLoads then Pending
      else if env.typedPng == "" then Alerts(GenerateFailed)
      else Saves(env.typedPng)
    else if s.mode == Upload && s.uploaded.Some? then
      if !env.uploadContext then Alerts(NoContext)
      else if !env.uploadLoads then Alerts(LoadFailed)
      else Saves(env.resizedPng)
    else Alerts(NoSignature)
  }

  /** When a save succeeds, and with which image. */
  predicate Succeeds(s: State, env: SaveEnv) {
    || (s.mode == Draw && s.padHasInk)
    || (s.mode == Type && s.typed != "" && env.typeContext && env.typedLoads && env.typedPng != "")
    || (s.mode == Upload && s.uploaded.Some? && env.uploadContext && env.uploadLoads)
  }

  /** The image a successful save hands on. */
  function ExpectedImage(s: State, env: SaveEnv): string {
    match s.mode
    case Draw => env.drawnPng
    case Type => env.typedPng
    case Upload => env.resizedPng
  }

  // ---------------------------------------------------------------------------
  // Properties
  // ---------------------------------------------------------------------------

  /** `onSave` is called exactly when the mode's requirements are met, and then with that mode's image. */
  lemma SaveCharacterised(s: State, env: SaveEnv)
    ensures |Save(s, env).saved| == 1 <==> Succeeds(s, env)
    ensures Succeeds(s, env) ==> Save(s, env) == Saves(ExpectedImage(s, env))
    ensures !Succeeds(s, env) && Settles(s, env) ==> |Save(s, env).alerts| == 1 && Save(s, env).saved == []
    ensures !Settles(s, env) ==> !Succeeds(s, env) && Save(s, env) == Pending
  {
  }

  /** Every alert raised by a save is one of the four messages of the dialog. */
  lemma SaveAlertsKnown(s: State, env: SaveEnv)
    ensures forall a :: a in Save(s, env).alerts ==> a in {NoSignature, GenerateFailed, NoContext, LoadFailed}
  {
  }

  /** A typed image rendered to the empty string is refused, even with a context, once the render completes. */
  lemma EmptyRenderRefused(s: State, env: SaveEnv)
    requires s.mode == Type && s.typed != "" && env.typedPng == ""
    ensures Settles(s, env) ==> Save(s, env) == Alerts(GenerateFailed)
    ensures !Settles(s, env) ==> Save(s, env) == Pending
  {
  }

  /** Every operation keeps the pad's ink confined to draw mode. */
  lemma OperationsKeepValid(s: State, m: Mode, text: string, checked: bool, picked: Option<Picture>, w: real, h: real)
    requires Valid(s)
    requires m != Upload
    requires picked.Some? ==> picked.value.width > 0.0 && picked.value.height > 0.0
    requires s.uploaded.Some? && !s.lockAspect ==> h != 0.0
    ensures Valid(Initial())
    ensures Valid(SelectMode(s, m)) && Valid(Stroke(s)) && Valid(SetTyped(s, text)) && Valid(SetLock(s, checked))
    ensures Valid(Clear(s)) && Valid(HandleUpload(s, picked)) && Valid(HandleResizeStop(s, w, h))
  {
  }

  /** Typing, then clearing, leaves nothing to save. */
  lemma ClearedTextNotSaved(s: State, text: string, env: SaveEnv)
    requires s.mode == Type
    ensures Save(Clear(SetTyped(s, text)), env) == Alerts(NoSignature)
  {
  }

  /** Drawing, then clearing, leaves nothing to save. */
  lemma ClearedPadNotSaved(s: State, env: SaveEnv)
    requires s.mode == Draw
    ensures Save(Clear(Stroke(s)), env) == Alerts(NoSignature)
  {
  }

  /** Leaving draw mode discards the ink: coming back, the pad is empty. */
  lemma InkLostOnModeSwitch(s: State, env: SaveEnv)
    requires s.mode == Draw
    ensures !SelectMode(SelectMode(Stroke(s), Type), Draw).padHasInk
    ensures Save(SelectMode(SelectMode(Stroke(s), Type), Draw), env) == Alerts(NoSignature)
  {
  }

  /** An image no wider than 400 keeps its intrinsic size exactly. */
  lemma SmallUploadUnchanged(p: Picture)
    requires 0.0 < p.width <= MaxUploadWidth && p.height > 0.0
    ensures Fit(p).width == p.width && Fit(p).height == p.height
  {
    var u := Fit(p);
    assert u.width == p.width;
    assert u.height * (p.width / p.height) == p.width;
  }

  /** A wider image is scaled down to 400 wide, its height scaled by the same factor. */
  lemma LargeUploadScaled(p: Picture)
    requires p.width > MaxUploadWidth && p.height > 0.0
    ensures Fit(p).width == MaxUploadWidth
    ensures Fit(p).height * p.width == p.height * MaxUploadWidth
  {
    var u := Fit(p);
    assert u.height * (p.width / p.height) == MaxUploadWidth;
    assert (p.width / p.height) * p.height == p.width;
  }

  /** After an upload, a save with a working canvas hands on the resized image and nothing else. */
  lemma UploadThenSave(s: State, p: Picture, env: SaveEnv)
    requires p.width > 0.0 && p.height > 0.0
    requires env.uploadContext && env.uploadLoads
    ensures Save(HandleUpload(s, Some(p)), env) == Saves(env.resizedPng)
  {
  }

  /** With the lock on, any sequence of two resizes keeps the ratio computed at upload time. */
  lemma LockedResizesKeepRatio(s: State, p: Picture, w1: real, h1: real, w2: real, h2: real)
    requires p.width > 0.0 && p.height > 0.0 && s.lockAspect
    ensures var r := HandleResizeStop(HandleResizeStop(HandleUpload(s, Some(p)), w1, h1), w2, h2);
      r.uploaded.Some? && r.uploaded.value.aspectRatio * p.height == p.width
      && r.uploaded.value.width == w2 && r.uploaded.value.height == h2
  {
  }

  /** Without the lock, the ratio follows the last resize. */
  lemma UnlockedResizeFollowsSize(s: State, w: real, h: real)
    requires s.uploaded.Some? && !s.lockAspect && h != 0.0
    ensures var u := HandleResizeStop(s, w, h).uploaded.value;
      u.height * u.aspectRatio == u.width
  {
  }
}

=== FILE: export.dfy ===
/**
 "Save Document": the overlay fields are converted from preview space (CSS
 pixels, origin top-left) into PDF space (points, origin bottom-left) and
 drawn page by page. pdf-lib itself is abstract: drawing produces a list of
 draw commands, and whether a field's image embeds or its text can be drawn
 is a property of the collaborator passed in.
 */
module Export {
  import opened Basics
  import opened Overlay
  import Session

  /** Scale factors from preview to PDF space, and the page height used for the vertical flip. */
  datatype Scale = Scale(sx: real, sy: real, pageHeight: real)

  /** A rectangle in preview space: top-left corner and size. */
  datatype PreviewRect = PreviewRect(x: real, y: real, width: real, height: real)

  /** A rectangle in PDF space: bottom-left corner and size. */
  datatype PdfBox = PdfBox(x: real, y: real, width: real, height: real)

  /**
   One pdf-lib draw call. A command records the preview geometry and the scale
   its coordinates are computed from; `ImageBox` and `TextAt` give the numbers
   pdf-lib receives.
   */
  datatype DrawCommand =
    | DrawImage(pageIndex: nat, image: string, rect: PreviewRect, scale: Scale)
    | DrawText(pageIndex: nat, text: string, anchor: Point, scale: Scale)

  /** Where a text is drawn: baseline origin, font size and wrapping width, in PDF units. */
  datatype TextPlacement = TextPlacement(x: real, y: real, size: real, maxWidth: real)

  /**
   What the PDF library does with a field's content: whether fetching the
   data URL and embedding it as PNG succeeds, and whether the standard font
   can draw a text.
   */
  datatype Library = Library(embedsPng: string -> bool, drawsText: string -> bool)

  /** One page's loop: commands issued and ids of the fields whose processing threw (each logged, then skipped). */
  datatype Drawing = Drawing(commands: seq<DrawCommand>, errors: seq<string>)

  /**
   The saved document: the draw calls each page received, in order, and the
   ids logged by failing fields across all pages, in processing order.
   */
  datatype Document = Document(pages: seq<seq<DrawCommand>>, errors: seq<string>)

  /** The outcome of pressing "Save Document". */
  datatype Outcome =
    | NotSaved                                  // not a PDF, or no rendered page: returns quietly
    | Failed(alert: string)                     // the document could not be processed: the user is alerted
    | NonFiniteScale                            // the preview measures zero: the scale would be infinite
    | Downloaded(fileName: string, document: Document)

  const TextFontSize: real := 12.0
  const TextMaxWidth: real := 200.0
  const SaveErrorMessage: string := "Error saving the document. Please try again."
  const DownloadName: string := "signed-document.pdf"

  /** Scale factors from the first page's size and the preview's client size. */
  function ScaleFor(firstPage: Size, preview: Size): (s: Scale)
    requires preview.width != 0.0 && preview.height != 0.0
    ensures s.sx * preview.width == firstPage.width
    ensures s.sy * preview.height == firstPage.height
    ensures s.pageHeight == firstPage.height
  {
    Scale(firstPage.width / preview.width, firstPage.height / preview.height, firstPage.height)
  }

  function FieldRect(f: Field): PreviewRect {
    PreviewRect(f.position.x, f.position.y, f.width, f.height)
  }

  /** Preview rectangle to PDF box: scale, then flip the vertical axis about the page height. */
  function ToPdf(r: PreviewRect, s: Scale): PdfBox {
    var h := r.height * s.sy;
    PdfBox(r.x * s.sx, s.pageHeight - r.y * s.sy - h, r.width * s.sx, h)
  }

  /**
   What the transform does to a rectangle. Kept out of `ToPdf`'s own contract so
   that proofs about the page loops do not carry the products of reals along.
   */
  lemma ToPdfGeometry(r: PreviewRect, s: Scale)
    ensures ToPdf(r, s).x == r.x * s.sx && ToPdf(r, s).width == r.width * s.sx
    ensures ToPdf(r, s).height == r.height * s.sy
    // the preview's top edge (distance r.y from the top) lands at distance r.y * sy below the page top
    ensures s.pageHeight - (ToPdf(r, s).y + ToPdf(r, s).height) == r.y * s.sy
  {
  }

  /** The `{x, y, width, height}` passed to `drawImage`. */
  function ImageBox(c: DrawCommand): PdfBox
    requires c.DrawImage?
  {
    ToPdf(c.rect, c.scale)
  }

  /** The `{x, y, size, maxWidth}` passed to `drawText`: the anchor is scaled and flipped, the box's height plays no part. */
  function TextAt(c: DrawCommand): TextPlacement
    requires c.DrawText?
  {
    var s := c.scale;
    TextPlacement(c.anchor.x * s.sx, s.pageHeight - c.anchor.y * s.sy, TextFontSize * s.sy, TextMaxWidth * s.sx)
  }

  /** The inverse map, PDF box back to preview rectangle. */
  function ToPreview(b: PdfBox, s: Scale): (r: PreviewRect)
    requires s.sx != 0.0 && s.sy != 0.0
    ensures r.x * s.sx == b.x && r.width * s.sx == b.width && r.height * s.sy == b.height
  {
    PreviewRect(b.x / s.sx, (s.pageHeight - b.y - b.height) / s.sy, b.width / s.sx, b.height / s.sy)
  }

  /** Whether processing `f` throws inside the per-field `try`. */
  predicate Throws(f: Field, lib: Library) {
    (f.kind == Signature && !lib.embedsPng(f.content)) || (f.kind == TextBox && !lib.drawsText(f.content))
  }

  /** The command for one field on page index `pageIndex`; `None` when nothing is drawn. */
  function FieldCommand(f: Field, pageIndex: nat, s: Scale): Option<DrawCommand> {
    match f.kind
    case Signature => Some(DrawImage(pageIndex, f.content, FieldRect(f), s))
    case TextBox => Some(DrawText(pageIndex, f.content, f.position, s))
    case _ => None
  }

  /** One field's contribution: a throw is logged with the field's id and the loop moves on. */
  function DrawField(d: Drawing, f: Field, pageIndex: nat, s: Scale, lib: Library): (r: Drawing)
    ensures Throws(f, lib) ==> r == Drawing(d.commands, d.errors + [f.id])
    ensures !Throws(f, lib) && FieldCommand(f, pageIndex, s).Some? ==>
      r == Drawing(d.commands + [FieldCommand(f, pageIndex, s).value], d.errors)
    ensures !Throws(f, lib) && FieldCommand(f, pageIndex, s).None? ==> r == d
  {
    if Throws(f, lib) then d.(errors := d.errors + [f.id])
    else match FieldCommand(f, pageIndex, s)
      case Some(c) => d.(commands := d.commands + [c])
      case None => d
  }

  /** Every command lies on page index `pageIndex`. */
  predicate AllOnPage(cs: seq<DrawCommand>, pageIndex: nat) {
    forall i :: 0 <= i < |cs| ==> cs[i].pageIndex == pageIndex
  }

  /** The fields of one page, drawn in list order. */
  function DrawFields(fields: seq<Field>, pageIndex: nat, s: Scale, lib: Library): (d: Drawing)
    ensures |d.commands| + |d.errors| <= |fields|
    decreases |fields|
  {
    if |fields| == 0 then Drawing([], [])
    else DrawField(DrawFields(fields[..|fields| - 1], pageIndex, s, lib), fields[|fields| - 1], pageIndex, s, lib)
  }

  /** `fields.filter(field => field.page === page)`. */
  function PageFields(fields: seq<Field>, page: int): (r: seq<Field>)
    ensures |r| <= |fields|
    decreases |fields|
  {
    if |fields| == 0 then []
    else
      var last := fields[|fields| - 1];
      PageFields(fields[..|fields| - 1], page) + (if last.page == Some(page) then [last] else [])
  }

  /** Every command of a page's drawing is on that page. */
  lemma {:induction false} DrawFieldsOnPage(fields: seq<Field>, pageIndex: nat, s: Scale, lib: Library)
    ensures AllOnPage(DrawFields(fields, pageIndex, s, lib).commands, pageIndex)
    decreases |fields|
  {
    if |fields| > 0 {
      DrawFieldsOnPage(fields[..|fields| - 1], pageIndex, s, lib);
    }
  }

  /** The document after one more page's loop. */
  function WithPage(d: Document, page: Drawing): Document {
    Document(d.pages + [page.commands], d.errors + page.errors)
  }

  /**
   Pages 0 .. n-1 in order. Page index i receives exactly the commands of the
   fields whose page is i + 1, in list order.
   */
  function DrawPages(fields: seq<Field>, n: nat, s: Scale, lib: Library): (d: Document)
    ensures |d.pages| == n
    ensures forall i :: 0 <= i < n ==> d.pages[i] == DrawFields(PageFields(fields, i + 1), i, s, lib).commands
    decreases n
  {
    if n == 0 then Document([], [])
    else WithPage(DrawPages(fields, n - 1, s, lib), DrawFields(PageFields(fields, n), n - 1, s, lib))
  }

  /**
   The "Save Document" handler. `file` is the selected file; `pages` the page
   sizes pdf-lib reads from it (`None` when loading or embedding the font
   throws); `pageElement` the rendered page's client size, if the element exists.
   */
  function SaveDocument(file: Option<Session.DocumentFile>, fields: seq<Field>, pages: Option<seq<Size>>,
                        pageElement: Option<Size>, lib: Library): (o: Outcome)
    ensures file.None? || !Contains(file.value.mime, "pdf") ==> o == NotSaved
    // loading the PDF throws, or `pages[0]` is undefined: caught, and the user is alerted
    ensures file.Some? && Contains(file.value.mime, "pdf") && (pages.None? || |pages.value| == 0) ==>
      o == Failed(SaveErrorMessage)
    // the rendered page element is missing: the handler returns without a word
    ensures file.Some? && Contains(file.value.mime, "pdf") && pages.Some? && |pages.value| > 0 && pageElement.None? ==>
      o == NotSaved
    ensures o.Downloaded? ==> o.fileName == "signed-document.pdf"
    ensures o.Downloaded? <==>
      && file.Some? && Contains(file.value.mime, "pdf")
      && pages.Some? && |pages.value| > 0
      && pageElement.Some? && pageElement.value.width != 0.0 && pageElement.value.height != 0.0
    ensures o.Downloaded? ==> |o.document.pages| == |pages.value|   // one entry per page of the loaded PDF
    ensures o.Downloaded? ==>
      o.document == DrawPages(fields, |pages.value|, ScaleFor(pages.value[0], pageElement.value), lib)
    ensures o.Failed? ==> o.alert == SaveErrorMessage
  {
    if file.None? || !Contains(file.value.mime, "pdf") then NotSaved
    else if pages.None? then Failed(SaveErrorMessage)
    else if |pages.value| == 0 then Failed(SaveErrorMessage)   // `pages[0].getSize()` on an undefined page
    else if pageElement.None? then NotSaved
    else if pageElement.value.width == 0.0 || pageElement.value.height == 0.0 then NonFiniteScale
    else
      var s := ScaleFor(pages.value[0], pageElement.value);
      Downloaded(DownloadName, DrawPages(fields, |pages.value|, s, lib))
  }

  /** The inner loop of the handler: `for (const field of pageFields)` with its per-field `try`. */
  method RenderFields(pageFields: seq<Field>, pageIndex: nat, s: Scale, lib: Library) returns (page: Drawing)
    ensures page == DrawFields(pageFields, pageIndex, s, lib)
  {
    page := Drawing([], []);
    var k := 0;
    while k < |pageFields|
      invariant k <= |pageFields|
      invariant page == DrawFields(pageFields[..k], pageIndex, s, lib)
    {
      assert pageFields[..k + 1][..k] == pageFields[..k];
      page := DrawField(page, pageFields[k], pageIndex, s, lib);
      k := k + 1;
    }
    assert pageFields[..k] == pageFields;
  }

  /** The outer loop of the handler: pages in order, each drawing the fields assigned to it. */
  method RenderPages(fields: seq<Field>, pageCount: nat, s: Scale, lib: Library) returns (d: Document)
    ensures d == DrawPages(fields, pageCount, s, lib)
  {
    d := Document([], []);
    var pageIndex := 0;
    while pageIndex < pageCount
      invariant pageIndex <= pageCount
      invariant d == DrawPages(fields, pageIndex, s, lib)
    {
      var page := RenderFields(PageFields(fields, pageIndex + 1), pageIndex, s, lib);
      d := WithPage(d, page);
      pageIndex := pageIndex + 1;
    }
  }
}

=== FILE: export_properties.dfy ===
/**
 What "Save Document" guarantees about the coordinate transform and about
 which fields end up on which page.
 */
module ExportProperties {
  import opened Basics
  import opened Overlay
  import opened Export
  import Session

  // ---------------------------------------------------------------------------
  // The coordinate transform
  // ---------------------------------------------------------------------------

  /** With non-zero scale factors the preview-to-PDF map is a bijection: each direction undoes the other. */
  lemma TransformRoundTrip(r: PreviewRect, b: PdfBox, s: Scale)
    requires s.sx != 0.0 && s.sy != 0.0
    ensures ToPreview(ToPdf(r, s), s) == r
    ensures ToPdf(ToPreview(b, s), s) == b
  {
    var p := ToPdf(r, s);
    ToPdfGeometry(r, s);
    assert (s.pageHeight - p.y - p.height) / s.sy == r.y by {
      assert s.pageHeight - p.y - p.height == r.y * s.sy;
    }
    var q := ToPreview(b, s);
    assert q.y * s.sy == s.pageHeight - b.y - b.height;
  }

  /** A field resting on the preview's bottom edge is drawn on the PDF page's bottom edge. */
  lemma BottomEdgeMapsToZero(firstPage: Size, preview: Size, r: PreviewRect)
    requires preview.width != 0.0 && preview.height != 0.0
    requires r.y + r.height == preview.height
    ensures ToPdf(r, ScaleFor(firstPage, preview)).y == 0.0
  {
    var s := ScaleFor(firstPage, preview);
    calc {
      ToPdf(r, s).y;
      s.pageHeight - r.y * s.sy - r.height * s.sy;
      s.pageHeight - (r.y + r.height) * s.sy;
      firstPage.height - preview.height * s.sy;
      0.0;
    }
  }

  /** The whole preview maps onto the whole first page. */
  lemma WholePreviewIsWholePage(firstPage: Size, preview: Size)
    requires preview.width != 0.0 && preview.height != 0.0
    ensures ToPdf(PreviewRect(0.0, 0.0, preview.width, preview.height), ScaleFor(firstPage, preview))
      == PdfBox(0.0, 0.0, firstPage.width, firstPage.height)
  {
    var s := ScaleFor(firstPage, preview);
    assert preview.width * s.sx == firstPage.width;
    assert preview.height * s.sy == firstPage.height;
  }

  /**
   A text box is drawn with its baseline at the image of the box's TOP edge:
   its `y` is the top of the box a signature of the same geometry would get.
   */
  lemma TextBaselineAtTopEdge(f: Field, pageIndex: nat, s: Scale)
    requires f.kind == TextBox
    ensures FieldCommand(f, pageIndex, s).Some?
    ensures TextAt(FieldCommand(f, pageIndex, s).value).y == ToPdf(FieldRect(f), s).y + ToPdf(FieldRect(f), s).height
    ensures TextAt(FieldCommand(f, pageIndex, s).value).x == ToPdf(FieldRect(f), s).x
  {
  }

  // ---------------------------------------------------------------------------
  // Composition of the loops
  // ---------------------------------------------------------------------------

  function Join(d1: Drawing, d2: Drawing): Drawing {
    Drawing(d1.commands + d2.commands, d1.errors + d2.errors)
  }

  lemma JoinEmpty(d: Drawing)
    ensures Join(d, Drawing([], [])) == d
  {
    assert d.commands + [] == d.commands;
    assert d.errors + [] == d.errors;
  }

  /** One step of the page loop. */
  lemma DrawPagesStep(fields: seq<Field>, n: nat, s: Scale, lib: Library)
    requires n > 0
    ensures DrawPages(fields, n, s, lib)
      == WithPage(DrawPages(fields, n - 1, s, lib), DrawFields(PageFields(fields, n), n - 1, s, lib))
  {
  }

  lemma {:induction false} DrawFieldsAppend(a: seq<Field>, b: seq<Field>, pageIndex: nat, s: Scale, lib: Library)
    ensures DrawFields(a + b, pageIndex, s, lib) == Join(DrawFields(a, pageIndex, s, lib), DrawFields(b, pageIndex, s, lib))
    decreases |b|
  {
    if |b| == 0 {
      assert a + b == a;
    } else {
      var b' := b[..|b| - 1];
      assert (a + b)[..|a + b| - 1] == a + b';
      assert (a + b)[|a + b| - 1] == b[|b| - 1];
      DrawFieldsAppend(a, b', pageIndex, s, lib);
    }
  }

  lemma {:induction false} PageFieldsAppend(a: seq<Field>, b: seq<Field>, page: int)
    ensures PageFields(a + b, page) == PageFields(a, page) + PageFields(b, page)
    decreases |b|
  {
    if |b| == 0 {
      assert a + b == a;
    } else {
      var b' := b[..|b| - 1];
      assert (a + b)[..|a + b| - 1] == a + b';
      assert (a + b)[|a + b| - 1] == b[|b| - 1];
      PageFieldsAppend(a, b', page);
    }
  }

  /** The page filter keeps exactly the fields assigned to that page. */
  lemma {:induction false} PageFieldsMembers(fields: seq<Field>, page: int)
    ensures forall f :: f in PageFields(fields, page) <==> f in fields && f.page == Some(page)
    decreases |fields|
  {
    if |fields| > 0 {
      var init := fields[..|fields| - 1];
      PageFieldsMembers(init, page);
      assert fields == init + [fields[|fields| - 1]];
    }
  }

  /** Splitting the field list around one field `f`, page by page. */
  lemma SplitAround(a: seq<Field>, f: Field, b: seq<Field>, page: int, pageIndex: nat, s: Scale, lib: Library)
    ensures DrawFields(PageFields(a + [f] + b, page), pageIndex, s, lib)
      == Join(Join(DrawFields(PageFields(a, page), pageIndex, s, lib),
                   DrawFields(PageFields([f], page), pageIndex, s, lib)),
              DrawFields(PageFields(b, page), pageIndex, s, lib))
    ensures DrawFields(PageFields(a + b, page), pageIndex, s, lib)
      == Join(DrawFields(PageFields(a, page), pageIndex, s, lib), DrawFields(PageFields(b, page), pageIndex, s, lib))
  {
    PageFieldsAppend(a + [f], b, page);
    PageFieldsAppend(a, [f], page);
    PageFieldsAppend(a, b, page);
    DrawFieldsAppend(PageFields(a, page) + PageFields([f], page), PageFields(b, page), pageIndex, s, lib);
    DrawFieldsAppend(PageFields(a, page), PageFields([f], page), pageIndex, s, lib);
    DrawFieldsAppend(PageFields(a, page), PageFields(b, page), pageIndex, s, lib);
  }

  /** On a page `f` is not assigned to, the page draws as if `f` were absent. */
  lemma PageWithoutField(a: seq<Field>, f: Field, b: seq<Field>, page: int, pageIndex: nat, s: Scale, lib: Library)
    requires PageFields([f], page) == []
    ensures DrawFields(PageFields(a + [f] + b, page), pageIndex, s, lib) == DrawFields(PageFields(a + b, page), pageIndex, s, lib)
  {
    SplitAround(a, f, b, page, pageIndex, s, lib);
    var x := DrawFields(PageFields(a, page), pageIndex, s, lib);
    var y := DrawFields(PageFields([f], page), pageIndex, s, lib);
    var z := DrawFields(PageFields(b, page), pageIndex, s, lib);
    assert y == Drawing([], []);
    JoinEmpty(x);
  }

  // ---------------------------------------------------------------------------
  // Which fields are exported, and where
  // ---------------------------------------------------------------------------

  /** The page loop respects equality page by page. */
  lemma {:induction false} PagesAgree(x: seq<Field>, y: seq<Field>, n: nat, s: Scale, lib: Library)
    requires forall p :: 1 <= p <= n ==>
      DrawFields(PageFields(x, p), p - 1, s, lib) == DrawFields(PageFields(y, p), p - 1, s, lib)
    ensures DrawPages(x, n, s, lib) == DrawPages(y, n, s, lib)
    decreases n
  {
    if n > 0 {
      PagesAgree(x, y, n - 1, s, lib);
      DrawPagesStep(x, n, s, lib);
      DrawPagesStep(y, n, s, lib);
    }
  }

  /** The page loop respects equality of the commands page by page. */
  lemma {:induction false} PageCommandsAgree(x: seq<Field>, y: seq<Field>, n: nat, s: Scale, lib: Library)
    requires forall p :: 1 <= p <= n ==>
      DrawFields(PageFields(x, p), p - 1, s, lib).commands == DrawFields(PageFields(y, p), p - 1, s, lib).commands
    ensures DrawPages(x, n, s, lib).pages == DrawPages(y, n, s, lib).pages
    decreases n
  {
    if n > 0 {
      PageCommandsAgree(x, y, n - 1, s, lib);
      DrawPagesStep(x, n, s, lib);
      DrawPagesStep(y, n, s, lib);
    }
  }

  /** A field assigned to no page 1..n contributes nothing to the export, wherever it sits in the list. */
  lemma FieldOffPagesIgnored(a: seq<Field>, f: Field, b: seq<Field>, n: nat, s: Scale, lib: Library)
    requires f.page.None? || f.page.value < 1 || f.page.value > n
    ensures DrawPages(a + [f] + b, n, s, lib) == DrawPages(a + b, n, s, lib)
  {
    forall p | 1 <= p <= n
      ensures DrawFields(PageFields(a + [f] + b, p), p - 1, s, lib) == DrawFields(PageFields(a + b, p), p - 1, s, lib)
    {
      assert PageFields([f], p) == [] by {
        assert [f][..0] == [];
      }
      PageWithoutField(a, f, b, p, p - 1, s, lib);
    }
    PagesAgree(a + [f] + b, a + b, n, s, lib);
  }

  /**
   A field with no page is shown on every page of the preview, yet never
   exported: removing it from the list leaves the export unchanged.
   */
  lemma UnpagedFieldShownButNotExported(a: seq<Field>, f: Field, b: seq<Field>, n: nat, s: Scale, lib: Library)
    requires f.page.None?
    ensures forall currentPage :: DisplayedOn(f, currentPage)
    ensures DrawPages(a + [f] + b, n, s, lib) == DrawPages(a + b, n, s, lib)
  {
    FieldOffPagesIgnored(a, f, b, n, s, lib);
  }

  /** A field that throws draws nothing, whichever page it is filtered for. */
  lemma ThrowingFieldDrawsNothing(f: Field, page: int, pageIndex: nat, s: Scale, lib: Library)
    requires Throws(f, lib)
    ensures DrawFields(PageFields([f], page), pageIndex, s, lib).commands == []
  {
    assert [f][..0] == [];
  }

  /** On any page, a field that throws adds no command. */
  lemma PageWithoutThrowingField(a: seq<Field>, f: Field, b: seq<Field>, page: int, pageIndex: nat, s: Scale, lib: Library)
    requires Throws(f, lib)
    ensures DrawFields(PageFields(a + [f] + b, page), pageIndex, s, lib).commands
         == DrawFields(PageFields(a + b, page), pageIndex, s, lib).commands
  {
    ThrowingFieldDrawsNothing(f, page, pageIndex, s, lib);
    SplitAround(a, f, b, page, pageIndex, s, lib);
  }

  /** A field whose processing throws draws nothing, and every other field is still drawn as before. */
  lemma ThrowingFieldSkipped(a: seq<Field>, f: Field, b: seq<Field>, n: nat, s: Scale, lib: Library)
    requires Throws(f, lib)
    ensures DrawPages(a + [f] + b, n, s, lib).pages == DrawPages(a + b, n, s, lib).pages
  {
    forall p | 1 <= p <= n
      ensures DrawFields(PageFields(a + [f] + b, p), p - 1, s, lib).commands
           == DrawFields(PageFields(a + b, p), p - 1, s, lib).commands
    {
      PageWithoutThrowingField(a, f, b, p, p - 1, s, lib);
    }
    PageCommandsAgree(a + [f] + b, a + b, n, s, lib);
  }

  /** On its own page, a field that throws is logged by id. */
  lemma ThrowingFieldLoggedOnPage(a: seq<Field>, f: Field, b: seq<Field>, pageIndex: nat, s: Scale, lib: Library)
    requires Throws(f, lib) && f.page == Some(pageIndex + 1)
    ensures f.id in DrawFields(PageFields(a + [f] + b, pageIndex + 1), pageIndex, s, lib).errors
  {
    assert [f][..0] == [];
    assert DrawFields(PageFields([f], pageIndex + 1), pageIndex, s, lib).errors == [f.id];
    SplitAround(a, f, b, pageIndex + 1, pageIndex, s, lib);
  }

  /** The errors logged on page `p` are among the errors of the whole export. */
  lemma {:induction false} PageErrorsKept(fields: seq<Field>, n: nat, p: nat, e: string, s: Scale, lib: Library)
    requires 1 <= p <= n
    requires e in DrawFields(PageFields(fields, p), p - 1, s, lib).errors
    ensures e in DrawPages(fields, n, s, lib).errors
  {
    var upTo := DrawPages(fields, p, s, lib).errors;
    var all := DrawPages(fields, n, s, lib).errors;
    LastPageErrorsKept(fields, p, e, s, lib);
    ErrorsGrow(fields, p, n, s, lib);
    InPrefix(upTo, all, e);
  }

  /** Exporting more pages only appends to the error log. */
  lemma ErrorsGrow(fields: seq<Field>, p: nat, n: nat, s: Scale, lib: Library)
    requires p <= n
    ensures DrawPages(fields, p, s, lib).errors <= DrawPages(fields, n, s, lib).errors
  {
    var errs := (k: nat) => DrawPages(fields, k, s, lib).errors;
    forall k: nat ensures errs(k) <= errs(k + 1) {
      ErrorsGrowStep(fields, k, s, lib);
    }
    PrefixChain(errs, p, n);
  }

  /** One more page only appends to the error log. */
  lemma ErrorsGrowStep(fields: seq<Field>, m: nat, s: Scale, lib: Library)
    ensures DrawPages(fields, m, s, lib).errors <= DrawPages(fields, m + 1, s, lib).errors
  {
    DrawPagesStep(fields, m + 1, s, lib);
  }

  /** A chain of sequences, each a prefix of the next: every earlier one is a prefix of every later one. */
  lemma {:induction false} PrefixChain(errs: nat -> seq<string>, p: nat, n: nat)
    requires p <= n
    requires forall k: nat :: errs(k) <= errs(k + 1)
    ensures errs(p) <= errs(n)
    decreases n
  {
    if p < n {
      PrefixChain(errs, p, n - 1);
      assert errs(n - 1) <= errs(n);
    }
  }

  /** Membership survives extending a sequence. */
  lemma InPrefix(a: seq<string>, b: seq<string>, e: string)
    requires e in a && a <= b
    ensures e in b
  {
    var i :| 0 <= i < |a| && a[i] == e;
    assert b[i] == e;
  }

  /** An error of the last page is an error of the export. */
  lemma LastPageErrorsKept(fields: seq<Field>, n: nat, e: string, s: Scale, lib: Library)
    requires n > 0
    requires e in DrawFields(PageFields(fields, n), n - 1, s, lib).errors
    ensures e in DrawPages(fields, n, s, lib).errors
  {
    DrawPagesStep(fields, n, s, lib);
  }

  /** ... and the failure is logged with the field's id when the field is on an exported page. */
  lemma ThrowingFieldLogged(a: seq<Field>, f: Field, b: seq<Field>, n: nat, s: Scale, lib: Library)
    requires Throws(f, lib)
    requires f.page.Some? && 1 <= f.page.value <= n
    ensures f.id in DrawPages(a + [f] + b, n, s, lib).errors
  {
    var p: nat := f.page.value;
    ThrowingFieldLoggedOnPage(a, f, b, p - 1, s, lib);
    PageErrorsKept(a + [f] + b, n, p, f.id, s, lib);
  }

  /** Exporting with no overlays draws nothing and logs nothing. */
  lemma {:induction false} NoOverlaysNoDrawing(n: nat, s: Scale, lib: Library)
    ensures forall i :: 0 <= i < n ==> DrawPages([], n, s, lib).pages[i] == []
    ensures DrawPages([], n, s, lib).errors == []
    decreases n
  {
    if n > 0 {
      NoOverlaysNoDrawing(n - 1, s, lib);
    }
  }

  // ---------------------------------------------------------------------------
  // The handler as a whole
  // ---------------------------------------------------------------------------

  /** A file selected with the PDF MIME type is exported once a page is rendered and measured. */
  lemma PdfSelectionExports(name: string, fields: seq<Field>, pages: seq<Size>, element: Size, lib: Library)
    requires |pages| > 0 && element.width != 0.0 && element.height != 0.0
    ensures SaveDocument(Some(Session.DocumentFile(name, Session.PdfMime)), fields, Some(pages), Some(element), lib)
      == Downloaded("signed-document.pdf", DrawPages(fields, |pages|, ScaleFor(pages[0], element), lib))
  {
    var mime := Session.PdfMime;
    assert mime[12..15] == "pdf";
    ContainsAt(mime, "pdf", 12);
  }

  /** A one-signature list assigned to page 2 has nothing on page 1 and just the signature on page 2. */
  lemma OneSignaturePages(sig: Field)
    requires sig.page == Some(2)
    ensures PageFields([sig], 1) == [] && PageFields([sig], 2) == [sig]
  {
    assert [sig][..0] == [];
  }

  /** A signature that embeds is drawn as one image at its transformed box. */
  lemma OneSignatureDrawn(sig: Field, pageIndex: nat, s: Scale, lib: Library)
    requires sig.kind == Signature && lib.embedsPng(sig.content)
    ensures DrawFields([sig], pageIndex, s, lib) == Drawing([DrawImage(pageIndex, sig.content, FieldRect(sig), s)], [])
  {
    assert [sig][..0] == [];
  }

  /**
   A two-page PDF with one signature on page 2 at (100, 100), 200 by 100:
   page 1 gets nothing and page 2 exactly one image at the transformed box.
   */
  lemma TwoPageScenario(sig: Field, pageSize: Size, preview: Size, lib: Library)
    requires sig.kind == Signature && sig.page == Some(2) && lib.embedsPng(sig.content)
    requires sig.position == Point(100.0, 100.0) && sig.width == 200.0 && sig.height == 100.0
    requires preview.width != 0.0 && preview.height != 0.0
    ensures var s := ScaleFor(pageSize, preview);
      var d := DrawPages([sig], 2, s, lib);
      && d.pages == [[], [DrawImage(1, sig.content, PreviewRect(100.0, 100.0, 200.0, 100.0), s)]]
      && ImageBox(d.pages[1][0]) == PdfBox(100.0 * s.sx, pageSize.height - 200.0 * s.sy, 200.0 * s.sx, 100.0 * s.sy)
      && d.errors == []
  {
    var s := ScaleFor(pageSize, preview);
    OneSignaturePages(sig);
    OneSignatureDrawn(sig, 1, s, lib);
    assert DrawFields([], 0, s, lib) == Drawing([], []);
    DrawPagesStep([sig], 2, s, lib);
    DrawPagesStep([sig], 1, s, lib);
  }
}

=== FILE: overlay.dfy ===
/**
 The overlay-field list of the document editor: an ordered sequence of
 signature and text-box records, positioned in preview space and addressed by
 id. Every edit acts on EVERY field carrying the given id (ids come from the
 clock and nothing enforces their uniqueness), and leaves the others alone.
 */
module Overlay {
  import opened Basics

  /** The four kinds a field may declare; only signatures and text boxes are ever created. */
  datatype FieldKind = Signature | Date | Text | TextBox

  /**
   One overlay. `page`, `isEditing` and `maintainAspectRatio` are optional
   properties of the record and so are `Option`s here.
   */
  datatype Field = Field(
    id: string,
    kind: FieldKind,
    position: Point,
    content: string,
    page: Option<int>,
    width: real,
    height: real,
    isEditing: Option<bool>,
    maintainAspectRatio: Option<bool>)

  /** Size of a freshly placed signature and its distance from the page's bottom-right corner. */
  const SignatureWidth: real := 200.0
  const SignatureHeight: real := 100.0
  const SignaturePadding: real := 50.0

  /** Size of a freshly placed text box. */
  const TextBoxWidth: real := 200.0
  const TextBoxHeight: real := 100.0

  /** JavaScript truthiness of an optional page number: `undefined` and `0` are falsy. */
  predicate HasPage(f: Field) {
    f.page.Some? && f.page.value != 0
  }

  /** JavaScript truthiness of the optional aspect-ratio lock. */
  predicate IsLocked(f: Field) {
    f.maintainAspectRatio == Some(true)
  }

  /** The preview shows a field when it has no (truthy) page or sits on the current page. */
  predicate DisplayedOn(f: Field, currentPage: int) {
    !HasPage(f) || f.page == Some(currentPage)
  }

  /** A signature placed near the bottom-right corner of a preview of size `preview`. */
  function NewSignature(id: string, content: string, preview: Size, currentPage: int): (f: Field)
    ensures f.id == id && f.kind == Signature && f.content == content
    ensures f.page == Some(currentPage)
    ensures f.width == 200.0 && f.height == 100.0
    ensures IsLocked(f)
    ensures f.position.x >= 0.0 && f.position.y >= 0.0
    // the box ends 50 px short of the right and bottom edges whenever the preview is big enough
    ensures preview.width >= 250.0 ==> f.position.x + f.width + 50.0 == preview.width
    ensures preview.height >= 150.0 ==> f.position.y + f.height + 50.0 == preview.height
    // otherwise it is pinned to the left/top edge
    ensures preview.width < 250.0 ==> f.position.x == 0.0
    ensures preview.height < 150.0 ==> f.position.y == 0.0
  {
    Field(
      id, Signature,
      Point(Max(0.0, preview.width - SignatureWidth - SignaturePadding),
            Max(0.0, preview.height - SignatureHeight - SignaturePadding)),
      content, Some(currentPage), SignatureWidth, SignatureHeight,
      None, Some(true))
  }

  /** An empty text box centred on a preview of size `preview`, opened for editing. */
  function NewTextBox(id: string, preview: Size, currentPage: int): (f: Field)
    ensures f.id == id && f.kind == TextBox && f.content == ""
    ensures f.page == Some(currentPage)
    ensures f.width == 200.0 && f.height == 100.0
    ensures f.isEditing == Some(true) && f.maintainAspectRatio == None
    ensures f.position.x >= 0.0 && f.position.y >= 0.0
    // centred: equal margins left/right and top/bottom whenever the box fits
    ensures preview.width >= 200.0 ==> f.position.x == preview.width - (f.position.x + f.width)
    ensures preview.height >= 100.0 ==> f.position.y == preview.height - (f.position.y + f.height)
    ensures preview.width < 200.0 ==> f.position.x == 0.0
    ensures preview.height < 100.0 ==> f.position.y == 0.0
  {
    Field(
      id, TextBox,
      Point(Max(0.0, (preview.width - TextBoxWidth) / 2.0),
            Max(0.0, (preview.height - TextBoxHeight) / 2.0)),
      "", Some(currentPage), TextBoxWidth, TextBoxHeight,
      Some(true), None)
  }

  /** Appending a field: it becomes the last element, earlier fields are untouched. */
  function Append(fields: seq<Field>, f: Field): (r: seq<Field>)
    ensures |r| == |fields| + 1
    ensures r[..|fields|] == fields
    ensures r[|fields|] == f
  {
    fields + [f]
  }

  /** The geometry a drag or resize may change; everything else of `a` and `b` agrees. */
  predicate SameButGeometry(a: Field, b: Field) {
    a.(position := b.position, width := b.width, height := b.height) == b
  }

  /** Drag-stop: every field with id `id` moves to `p`; nothing else changes. */
  function MoveField(fields: seq<Field>, id: string, p: Point): (r: seq<Field>)
    ensures |r| == |fields|
    ensures forall i :: 0 <= i < |r| ==>
      SameButGeometry(fields[i], r[i]) && r[i].width == fields[i].width && r[i].height == fields[i].height
    ensures forall i :: 0 <= i < |r| ==>
      r[i].position == (if fields[i].id == id then p else fields[i].position)
  {
    seq(|fields|, i requires 0 <= i < |fields| =>
      if fields[i].id == id then fields[i].(position := p) else fields[i])
  }

  /** Resize-stop: every field with id `id` takes the new box (position and size); nothing else changes. */
  function ResizeField(fields: seq<Field>, id: string, width: real, height: real, p: Point): (r: seq<Field>)
    ensures |r| == |fields|
    ensures forall i :: 0 <= i < |r| ==> SameButGeometry(fields[i], r[i])
    ensures forall i :: 0 <= i < |r| && fields[i].id == id ==>
      r[i].position == p && r[i].width == width && r[i].height == height
    ensures forall i :: 0 <= i < |r| && fields[i].id != id ==> r[i] == fields[i]
  {
    seq(|fields|, i requires 0 <= i < |fields| =>
      if fields[i].id == id then fields[i].(width := width, height := height, position := p) else fields[i])
  }

  /** The lock toggle: `maintainAspectRatio: !f.maintainAspectRatio`, so an absent lock becomes `true`. */
  function ToggleLock(fields: seq<Field>, id: string): (r: seq<Field>)
    ensures |r| == |fields|
    ensures forall i :: 0 <= i < |r| && fields[i].id == id ==>
      r[i] == fields[i].(maintainAspectRatio := r[i].maintainAspectRatio) && IsLocked(r[i]) != IsLocked(fields[i])
    ensures forall i :: 0 <= i < |r| && fields[i].id != id ==> r[i] == fields[i]
  {
    seq(|fields|, i requires 0 <= i < |fields| =>
      if fields[i].id == id then fields[i].(maintainAspectRatio := Some(!IsLocked(fields[i]))) else fields[i])
  }

  /** Delete: drops every field with id `id`, keeping the others in order. */
  function Delete(fields: seq<Field>, id: string): (r: seq<Field>)
    ensures |r| <= |fields|
    ensures forall f :: f in r ==> f in fields && f.id != id
    ensures forall f :: f in fields && f.id != id ==> f in r
  {
    if |fields| == 0 then []
    else if fields[0].id == id then Delete(fields[1..], id)
    else [fields[0]] + Delete(fields[1..], id)
  }

  /** How many fields carry `id`. */
  function CountId(fields: seq<Field>, id: string): nat {
    if |fields| == 0 then 0
    else (if fields[0].id == id then 1 else 0) + CountId(fields[1..], id)
  }

  /** The ids in list order. */
  function Ids(fields: seq<Field>): (r: seq<string>)
    ensures |r| == |fields|
  {
    seq(|fields|, i requires 0 <= i < |fields| => fields[i].id)
  }

  // ---------------------------------------------------------------------------
  // Properties relating several operations
  // ---------------------------------------------------------------------------

  /** Delete distributes over concatenation, so the survivors keep their relative order. */
  lemma {:induction false} DeleteAppend(a: seq<Field>, b: seq<Field>, id: string)
    ensures Delete(a + b, id) == Delete(a, id) + Delete(b, id)
    decreases |a|
  {
    if |a| == 0 {
      assert a + b == b;
    } else {
      assert (a + b)[1..] == a[1..] + b;
      DeleteAppend(a[1..], b, id);
    }
  }

  /** Delete removes exactly the matching fields: the length drops by their number. */
  lemma {:induction false} DeleteLength(fields: seq<Field>, id: string)
    ensures |Delete(fields, id)| == |fields| - CountId(fields, id)
    decreases |fields|
  {
    if |fields| > 0 {
      DeleteLength(fields[1..], id);
    }
  }

  /** Deleting an id that no field carries changes nothing. */
  lemma {:induction false} DeleteAbsent(fields: seq<Field>, id: string)
    requires forall i :: 0 <= i < |fields| ==> fields[i].id != id
    ensures Delete(fields, id) == fields
    decreases |fields|
  {
    if |fields| > 0 {
      DeleteAbsent(fields[1..], id);
      assert fields == [fields[0]] + fields[1..];
    }
  }

  /** Deleting twice is deleting once. */
  lemma DeleteIdempotent(fields: seq<Field>, id: string)
    ensures Delete(Delete(fields, id), id) == Delete(fields, id)
  {
    var r := Delete(fields, id);
    forall i | 0 <= i < |r| ensures r[i].id != id {
      assert r[i] in r;
    }
    DeleteAbsent(r, id);
  }

  /** Delete undoes an append whose id is fresh. */
  lemma DeleteUndoesAppend(fields: seq<Field>, f: Field)
    requires forall i :: 0 <= i < |fields| ==> fields[i].id != f.id
    ensures Delete(Append(fields, f), f.id) == fields
  {
    DeleteAppend(fields, [f], f.id);
    DeleteAbsent(fields, f.id);
    assert Delete([f], f.id) == [];
  }

  /** A field that is moved and then deleted is simply deleted. */
  lemma {:induction false} DeleteAfterMove(fields: seq<Field>, id: string, p: Point)
    ensures Delete(MoveField(fields, id, p), id) == Delete(fields, id)
    decreases |fields|
  {
    if |fields| > 0 {
      var m := MoveField(fields, id, p);
      assert m[1..] == MoveField(fields[1..], id, p);
      DeleteAfterMove(fields[1..], id, p);
    }
  }

  /** Two drags of the same field: the last one wins. */
  lemma MoveLastWins(fields: seq<Field>, id: string, p: Point, q: Point)
    ensures MoveField(MoveField(fields, id, p), id, q) == MoveField(fields, id, q)
  {
  }

  /** Drags of fields with different ids commute. */
  lemma MovesCommute(fields: seq<Field>, id1: string, p: Point, id2: string, q: Point)
    requires id1 != id2
    ensures MoveField(MoveField(fields, id1, p), id2, q) == MoveField(MoveField(fields, id2, q), id1, p)
  {
  }

  /** Moves, resizes and lock toggles keep the list's ids (and so its length and order). */
  lemma EditsKeepIds(fields: seq<Field>, id: string, w: real, h: real, p: Point)
    ensures Ids(MoveField(fields, id, p)) == Ids(fields)
    ensures Ids(ResizeField(fields, id, w, h, p)) == Ids(fields)
    ensures Ids(ToggleLock(fields, id)) == Ids(fields)
  {
  }

  /**
   Toggling the lock twice restores every field whose lock was set, and gives an
   unset lock the value `false`, which reads the same (unlocked).
   */
  lemma ToggleTwice(fields: seq<Field>, id: string)
    ensures |ToggleLock(ToggleLock(fields, id), id)| == |fields|
    ensures forall i :: 0 <= i < |fields| ==>
      IsLocked(ToggleLock(ToggleLock(fields, id), id)[i]) == IsLocked(fields[i])
    ensures forall i :: 0 <= i < |fields| && fields[i].maintainAspectRatio.Some? ==>
      ToggleLock(ToggleLock(fields, id), id)[i] == fields[i]
    ensures forall i :: 0 <= i < |fields| && fields[i].id == id && fields[i].maintainAspectRatio.None? ==>
      ToggleLock(ToggleLock(fields, id), id)[i] == fields[i].(maintainAspectRatio := Some(false))
  {
    var once := ToggleLock(fields, id);
    var twice := ToggleLock(once, id);
    forall i | 0 <= i < |fields|
      ensures fields[i].id == id ==> twice[i] == fields[i].(maintainAspectRatio := Some(IsLocked(fields[i])))
      ensures fields[i].id != id ==> twice[i] == fields[i]
      ensures fields[i].maintainAspectRatio.Some? ==> twice[i] == fields[i]
    {
      assert once[i].id == fields[i].id;
      if fields[i].maintainAspectRatio.Some? {
        var m := fields[i].maintainAspectRatio;
        assert m == Some(m.value);
        assert IsLocked(fields[i]) == m.value;
      }
    }
  }

  /** When every field carrying `id` has its lock set, two toggles give back the list itself. */
  lemma ToggleTwiceRestores(fields: seq<Field>, id: string)
    requires forall i :: 0 <= i < |fields| && fields[i].id == id ==> fields[i].maintainAspectRatio.Some?
    ensures ToggleLock(ToggleLock(fields, id), id) == fields
  {
    ToggleTwice(fields, id);
  }
}

=== FILE: session.dfy ===
/**
 The document-editor session of the home page: the selected file, its page
 count and current page, the preview size measured once the PDF renders, the
 overlay-field list and the per-page text layers. Each event handler is a
 pure function from the old session to the new one.
 */
module Session {
  import opened Basics
  import opened Overlay

  /** The selected file as the handlers see it: its name and MIME type. */
  datatype DocumentFile = DocumentFile(name: string, mime: string)

  /** A per-page text layer, created empty for every page of a selected PDF. */
  datatype TextLayer = TextLayer(id: string, content: string, position: Point, page: int, fontSize: int)

  datatype State = State(
    file: Option<DocumentFile>,
    url: string,                // object URL of the selected file; creation and release are browser I/O
    fields: seq<Field>,
    textLayers: seq<TextLayer>,
    currentPage: int,
    numPages: int,
    preview: Size,              // client size of the rendered page, zero until it is measured
    editorOpen: bool)           // the signature editor dialog is shown

  const PdfMime: string := "application/pdf"
  const TextLayerFontSize: int := 12

  /** The state before any file is chosen. */
  function Initial(): (s: State)
    ensures s.file.None? && s.fields == [] && s.textLayers == []
    ensures s.currentPage == 1 && s.numPages == 0
    ensures s.preview.width == 0.0 && s.preview.height == 0.0
    ensures !s.editorOpen && s.url == ""
  {
    State(None, "", [], [], 1, 0, Size(0.0, 0.0), false)
  }

  /** The id given to the text layer of page `page`. */
  function TextLayerId(page: nat): string {
    "text-layer-" + NatToString(page)
  }

  /** One empty text layer per page, pages numbered from 1. */
  function InitialTextLayers(n: nat): (ls: seq<TextLayer>)
    ensures |ls| == n
    ensures forall i :: 0 <= i < n ==>
      ls[i].page == i + 1 && ls[i].content == "" && ls[i].fontSize == 12 && ls[i].position == Point(0.0, 0.0)
    ensures forall i, j :: 0 <= i < j < n ==> ls[i].id != ls[j].id
  {
    LayerIdsDistinct(n);
    seq(n, i requires 0 <= i < n => TextLayer(TextLayerId(i + 1), "", Point(0.0, 0.0), i + 1, TextLayerFontSize))
  }

  /** The ids of pages 1..n are pairwise different. */
  lemma LayerIdsDistinct(n: nat)
    ensures forall a, b :: 1 <= a < b <= n ==> TextLayerId(a) != TextLayerId(b)
  {
    forall a, b | 1 <= a < b <= n ensures TextLayerId(a) != TextLayerId(b) {
      TextLayerIdInjective(a, b);
    }
  }

  /** Different pages get different text-layer ids. */
  lemma TextLayerIdInjective(a: nat, b: nat)
    requires a != b
    ensures TextLayerId(a) != TextLayerId(b)
  {
    if TextLayerId(a) == TextLayerId(b) {
      assert NatToString(a) == TextLayerId(a)[11..];
      assert NatToString(b) == TextLayerId(b)[11..];
      NatToStringInjective(a, b);
    }
  }

  /**
   A new file is chosen. Nothing happens when the picker returns no file.
   Otherwise the session restarts on page 1 with no fields and, for a PDF whose
   page count `pdfPages` could be read, one empty text layer per page; when the
   PDF fails to load (`pdfPages == None`) the text layers stay empty. The page
   count and preview size are NOT reset here: they follow once the viewer
   reports the loaded document.
   */
  function HandleFileChange(s: State, selected: Option<DocumentFile>, newUrl: string, pdfPages: Option<nat>): (r: State)
    ensures selected.None? ==> r == s
    ensures selected.Some? ==>
      && r.file == selected && r.url == newUrl
      && r.currentPage == 1 && r.fields == []
      && r.numPages == s.numPages && r.preview == s.preview && r.editorOpen == s.editorOpen
    ensures selected.Some? && selected.value.mime == PdfMime && pdfPages.Some? ==>
      |r.textLayers| == pdfPages.value
      && forall i :: 0 <= i < |r.textLayers| ==>
           r.textLayers[i].page == i + 1 && r.textLayers[i].content == "" && r.textLayers[i].fontSize == 12
    ensures selected.Some? && (selected.value.mime != PdfMime || pdfPages.None?) ==> r.textLayers == []
  {
    match selected
    case None => s
    case Some(f) =>
      var layers := if f.mime == PdfMime && pdfPages.Some? then InitialTextLayers(pdfPages.value) else [];
      s.(file := selected, url := newUrl, currentPage := 1, fields := [], textLayers := layers)
  }

  /** The viewer reports the loaded document: record its page count and, when the page element exists, its size. */
  function DocumentLoaded(s: State, numPages: nat, pageElement: Option<Size>): (r: State)
    ensures r.numPages == numPages
    ensures pageElement.Some? ==> r.preview == pageElement.value
    ensures pageElement.None? ==> r.preview == s.preview
    ensures r.(numPages := s.numPages, preview := s.preview) == s
  {
    var preview := if pageElement.Some? then pageElement.value else s.preview;
    s.(numPages := numPages, preview := preview)
  }

  /** JavaScript's `!x` for a measured dimension. */
  predicate Unmeasured(x: real) {
    x == 0.0
  }

  /**
   The editor hands back a signature image. With an unmeasured preview the
   call does nothing at all (the dialog even stays open); otherwise the new
   signature is appended on the current page and the dialog closes.
   */
  function HandleSignatureSave(s: State, id: string, signature: string): (r: State)
    ensures Unmeasured(s.preview.width) || Unmeasured(s.preview.height) ==> r == s
    ensures !Unmeasured(s.preview.width) && !Unmeasured(s.preview.height) ==>
      && |r.fields| == |s.fields| + 1
      && r.fields[..|s.fields|] == s.fields
      && r.fields[|s.fields|] == NewSignature(id, signature, s.preview, s.currentPage)
      && r == s.(fields := r.fields, editorOpen := false)
  {
    if Unmeasured(s.preview.width) || Unmeasured(s.preview.height) then s
    else s.(fields := Append(s.fields, NewSignature(id, signature, s.preview, s.currentPage)), editorOpen := false)
  }

  /** "Add Text Box": like a signature save, but a centred empty text box and the dialog is not involved. */
  function AddTextBox(s: State, id: string): (r: State)
    ensures Unmeasured(s.preview.width) || Unmeasured(s.preview.height) ==> r == s
    ensures !Unmeasured(s.preview.width) && !Unmeasured(s.preview.height) ==>
      && |r.fields| == |s.fields| + 1
      && r.fields[..|s.fields|] == s.fields
      && r.fields[|s.fields|] == NewTextBox(id, s.preview, s.currentPage)
      && r == s.(fields := r.fields)
  {
    if Unmeasured(s.preview.width) || Unmeasured(s.preview.height) then s
    else s.(fields := Append(s.fields, NewTextBox(id, s.preview, s.currentPage)))
  }

  /** Replace the content of every text layer on page `page`; other layers and all pages stay as they are. */
  function HandleTextLayerChange(layers: seq<TextLayer>, page: int, content: string): (r: seq<TextLayer>)
    ensures |r| == |layers|
    ensures forall i :: 0 <= i < |r| && layers[i].page == page ==> r[i] == layers[i].(content := content)
    ensures forall i :: 0 <= i < |r| && layers[i].page != page ==> r[i] == layers[i]
  {
    seq(|layers|, i requires 0 <= i < |layers| =>
      if layers[i].page == page then layers[i].(content := content) else layers[i])
  }

  /** "Previous": one page back, never below 1. */
  function PreviousPage(p: int): (r: int)
    ensures r >= 1
    ensures p > 1 ==> r == p - 1
    ensures p <= 1 ==> r == 1
  {
    MaxInt(1, p - 1)
  }

  /** "Next": one page forward, never beyond `numPages`. */
  function NextPage(p: int, numPages: int): (r: int)
    ensures r <= numPages
    ensures p < numPages ==> r == p + 1
    ensures p >= numPages ==> r == numPages
  {
    MinInt(numPages, p + 1)
  }

  // ---------------------------------------------------------------------------
  // Properties
  // ---------------------------------------------------------------------------

  /** Navigation keeps a valid current page valid. */
  lemma NavigationStaysInRange(p: int, numPages: int)
    requires 1 <= p <= numPages
    ensures 1 <= PreviousPage(p) <= numPages
    ensures 1 <= NextPage(p, numPages) <= numPages
  {
  }

  /** Previous and Next undo each other away from the ends of the document. */
  lemma PreviousNextInverse(p: int, numPages: int)
    ensures 1 < p <= numPages ==> NextPage(PreviousPage(p), numPages) == p
    ensures 1 <= p < numPages ==> PreviousPage(NextPage(p, numPages)) == p
  {
  }

  /** The ends are fixed points: Previous on page 1 and Next on the last page change nothing. */
  lemma NavigationEnds(numPages: int)
    requires numPages >= 1
    ensures PreviousPage(1) == 1
    ensures NextPage(numPages, numPages) == numPages
  {
  }

  /**
   Before the viewer reports a page count (`numPages == 0`, as for an image
   file), Next takes page 1 to page 0, a page no field is exported from.
   */
  lemma NextWithoutPageCount()
    ensures NextPage(1, 0) == 0
  {
  }

  /**
   Calling the file-change handler a second time wipes every trace of the first
   call: only the last choice matters. The page renders its file input only
   while no file is chosen, so it never makes this second call itself; the
   lemma states what the handler does, not a reachable sequence of clicks.
   */
  lemma FileChangeLastWins(s: State, f1: DocumentFile, url1: string, p1: Option<nat>, f2: DocumentFile, url2: string, p2: Option<nat>)
    ensures HandleFileChange(HandleFileChange(s, Some(f1), url1, p1), Some(f2), url2, p2)
         == HandleFileChange(s, Some(f2), url2, p2)
  {
  }

  /**
   After choosing a PDF and having it rendered at a measured size, a signature
   save puts a field on page 1 and it is the only field.
   */
  lemma FirstSignatureOfDocument(s: State, f: DocumentFile, url: string, n: nat, page: Size, id: string, image: string)
    requires page.width != 0.0 && page.height != 0.0
    ensures var loaded := DocumentLoaded(HandleFileChange(s, Some(f), url, Some(n)), n, Some(page));
      var r := HandleSignatureSave(loaded, id, image);
      |r.fields| == 1 && r.fields[0].page == Some(1) && r.fields[0].content == image
      && r.numPages == n && r.currentPage == 1
  {
  }

  /**
   On the text layers of a freshly loaded PDF, editing page `page` changes
   exactly that page's layer: pages are numbered 1..n without repetition.
   */
  lemma TextLayerChangeHitsOnePage(n: nat, page: int, content: string)
    requires 1 <= page <= n
    ensures HandleTextLayerChange(InitialTextLayers(n), page, content)
      == InitialTextLayers(n)[page - 1 := InitialTextLayers(n)[page - 1].(content := content)]
  {
  }

  /** Editing a page that has no layer changes nothing. */
  lemma TextLayerChangeMissingPage(n: nat, page: int, content: string)
    requires page < 1 || page > n
    ensures HandleTextLayerChange(InitialTextLayers(n), page, content) == InitialTextLayers(n)
  {
  }

  /** Two edits of the same page: the last one wins. */
  lemma TextLayerChangeLastWins(layers: seq<TextLayer>, page: int, c1: string, c2: string)
    ensures HandleTextLayerChange(HandleTextLayerChange(layers, page, c1), page, c2)
      == HandleTextLayerChange(layers, page, c2)
  {
  }

  /** A signature placed while the preview is measured never starts off the page's top-left edges. */
  lemma PlacedSignatureNonNegative(s: State, id: string, signature: string)
    requires !Unmeasured(s.preview.width) && !Unmeasured(s.preview.height)
    ensures var f := Last(HandleSignatureSave(s, id, signature).fields);
      f.position.x >= 0.0 && f.position.y >= 0.0 && f.page == Some(s.currentPage) && f.content == signature
  {
  }

  /** A signature placed under an id no field carries is removed again, and only it, by deleting that id. */
  lemma SavedSignatureRemovable(s: State, id: string, signature: string)
    requires !Unmeasured(s.preview.width) && !Unmeasured(s.preview.height)
    requires forall i :: 0 <= i < |s.fields| ==> s.fields[i].id != id
    ensures Delete(HandleSignatureSave(s, id, signature).fields, id) == s.fields
  {
    DeleteUndoesAppend(s.fields, NewSignature(id, signature, s.preview, s.currentPage));
  }

  /** The same for a text box. */
  lemma AddedTextBoxRemovable(s: State, id: string)
    requires !Unmeasured(s.preview.width) && !Unmeasured(s.preview.height)
    requires forall i :: 0 <= i < |s.fields| ==> s.fields[i].id != id
    ensures Delete(AddTextBox(s, id).fields, id) == s.fields
  {
    DeleteUndoesAppend(s.fields, NewTextBox(id, s.preview, s.currentPage));
  }

  function Last(fields: seq<Field>): Field
    requires |fields| > 0
  {
    fields[|fields| - 1]
  }
}

=== FILE: workflow.dfy ===
/**
 The signature dialog as the home page uses it: the editor is mounted afresh
 each time the dialog opens, and its `onSave` callback is the page's
 signature-save handler.
 */
module Workflow {
  import opened Basics
  import opened Overlay
  import Session
  import Editor

  /** "Add Signature": show the dialog, which mounts a fresh editor. */
  function OpenEditor(s: Session.State): (r: (Session.State, Editor.State))
    ensures r.0.editorOpen && r.0.fields == s.fields && r.0.currentPage == s.currentPage
    ensures r.0 == s.(editorOpen := true)
    ensures r.1 == Editor.Initial()
  {
    (s.(editorOpen := true), Editor.Initial())
  }

  /** The dialog's close button. */
  function CloseEditor(s: Session.State): (r: Session.State)
    ensures !r.editorOpen && r.fields == s.fields
    ensures r == s.(editorOpen := false)
  {
    s.(editorOpen := false)
  }

  /** Deliver every image the editor hands to `onSave`, in order, to the page's handler. */
  function Deliver(s: Session.State, id: string, images: seq<string>): (r: Session.State)
    ensures |r.fields| <= |s.fields| + |images|
    ensures s.fields <= r.fields
    decreases |images|
  {
    if |images| == 0 then s else Deliver(Session.HandleSignatureSave(s, id, images[0]), id, images[1..])
  }

  /** "Save" pressed in the dialog: the editor's trace, and the page after its callback ran. */
  function Submit(s: Session.State, e: Editor.State, env: Editor.SaveEnv, id: string): (r: (Session.State, Editor.Trace))
    ensures r.1 == Editor.Save(e, env)
    ensures s.fields <= r.0.fields && |r.0.fields| <= |s.fields| + 1
  {
    var t := Editor.Save(e, env);
    (Deliver(s, id, t.saved), t)
  }

  // ---------------------------------------------------------------------------
  // Properties
  // ---------------------------------------------------------------------------

  /**
   A save the editor refuses leaves the page as it was, the dialog still open:
   one alert, or none when the save never completes.
   */
  lemma RefusedSaveChangesNothing(s: Session.State, e: Editor.State, env: Editor.SaveEnv, id: string)
    requires !Editor.Succeeds(e, env)
    ensures Submit(s, e, env, id).0 == s
    ensures |Submit(s, e, env, id).1.alerts| == if Editor.Settles(e, env) then 1 else 0
  {
    Editor.SaveCharacterised(e, env);
  }

  /**
   A successful save on a measured preview adds exactly one signature field,
   on the current page, carrying the editor's image, and closes the dialog.
   */
  lemma AcceptedSaveAddsOneField(s: Session.State, e: Editor.State, env: Editor.SaveEnv, id: string)
    requires Editor.Succeeds(e, env)
    requires !Session.Unmeasured(s.preview.width) && !Session.Unmeasured(s.preview.height)
    ensures var r := Submit(s, e, env, id).0;
      && |r.fields| == |s.fields| + 1
      && r.fields[..|s.fields|] == s.fields
      && r.fields[|s.fields|].kind == Signature
      && r.fields[|s.fields|].content == Editor.ExpectedImage(e, env)
      && r.fields[|s.fields|].page == Some(s.currentPage)
      && !r.editorOpen
  {
    Editor.SaveCharacterised(e, env);
    var image := Editor.ExpectedImage(e, env);
    assert Submit(s, e, env, id).0 == Deliver(Session.HandleSignatureSave(s, id, image), id, []);
  }

  /** Opening the dialog and saving straight away is refused: a fresh pad is empty. */
  lemma FreshEditorRefusesSave(s: Session.State, env: Editor.SaveEnv, id: string)
    ensures var o := OpenEditor(s);
      Submit(o.0, o.1, env, id) == (o.0, Editor.Trace([], [Editor.NoSignature]))
  {
  }

  /** Drawing one stroke in a fresh dialog and saving places the drawn image on the current page. */
  lemma DrawAndSave(s: Session.State, env: Editor.SaveEnv, id: string)
    requires !Session.Unmeasured(s.preview.width) && !Session.Unmeasured(s.preview.height)
    ensures var o := OpenEditor(s);
      var r := Submit(o.0, Editor.Stroke(o.1), env, id).0;
      r.fields == s.fields + [NewSignature(id, env.drawnPng, s.preview, s.currentPage)] && !r.editorOpen
  {
    var o := OpenEditor(s);
    AcceptedSaveAddsOneField(o.0, Editor.Stroke(o.1), env, id);
  }
}
